=== FILE: README.md ===
# BMKG weather forecast proxy — a Dafny model

The service fetches one village's forecast from the BMKG public API and
re-shapes it. The forecast is a list of days, each a list of raw entries.
Each entry is normalised into a `Cuaca` record. Timestamps are parsed. The
three description fields (`weather_desc`, `weather_desc_en`, `vs_text`) are
resolved against closed vocabularies. The first three days are exposed as
`now`, `day1` and `day2`, next to the validated location (`Lokasi`). Any
exception anywhere in that path becomes a single plain-text error response.
The service also has static region lookups by parent id. A second,
independent app offers an in-memory item store with create, read, list,
update and delete.

The model is written in Dafny as pure functions over JSON values. It has
one module per concern:

- `Wrappers`: `Option` and `Result`.
- `Json`: JSON values, Python truthiness, `dict.get`, `or`, and the
  exception kinds.
- `Externals`: the library behaviour the code relies on but does not
  define. These are `datetime.fromisoformat`, `datetime.strptime`,
  `datetime.isoformat` and pydantic's scalar coercion. They are collected
  as a `Host` parameter, so every result holds for every choice of them.
  Two predicates state what a round trip needs. `TimestampsLawful` says
  that every timestamp either parser returns is ISO-stable:
  `fromisoformat(dt.isoformat())` gives `dt` back, from a non-empty string.
  `CoercionLawful` says that pydantic never stores None for a non-None
  value and stores its own output unchanged. Neither law asks anything of
  timestamps no parser returns, such as a month 13. `SampleHost` is a
  small host whose parser returns only a calendar-valid timestamp and
  which meets both laws.
- `Vocabulary`: the three enums and `parse_enum`.
- `Temporal`: `parse_datetime`.
- `Observation`: `Cuaca`, `parse_cuaca_item` and `cuaca_to_dict`.
- `Matrix`: `parse_cuaca_matrix` and `parse_cuaca_matrix_for_listcuaca`.
- `Response`: the location block, the lookup of the raw forecast, the
  three-slot serialisation and the catch-all of the forecast endpoint.
- `Regions`: the lookups by parent id.
- `Items`: the item store, as an insertion-ordered dict.

## Model

| member | source | states |
|---|---|---|
| Vocabulary.ParseEnum | model_master.py:120-126 | None for a None token. Otherwise the first member, in declaration order, whose value or name equals the token exactly. None iff no member matches. |
| Vocabulary.FirstMatch | model_master.py:123-126 | The loop over the members: None iff no member matches; otherwise a matching member with no match before it. |
| Vocabulary.ResolvesAt | model_master.py:120-126 | In a vocabulary whose values and names are pairwise distinct, each member's value and its name both resolve to that member. |
| Vocabulary.WeatherDescUnambiguous | model_master.py:34-38 | No token names two different `WeatherDesc` members. |
| Vocabulary.WeatherDescEnUnambiguous | model_master.py:41-45 | No token names two different `WeatherDescEn` members. |
| Vocabulary.VsTextResolves | model_master.py:7-8 | `"> 10 km"` and `"THE_10_KM"` both resolve to the single `VsText` member. |
| Vocabulary.WeatherDescResolves | model_master.py:34-38 | Each `WeatherDesc` member is recovered from its display value and from its name. |
| Vocabulary.WeatherDescEnResolves | model_master.py:41-45 | Each `WeatherDescEn` member is recovered from its display value and from its name. |
| Vocabulary.ForeignTokenUnresolved | model_master.py:123-126 | A token that belongs only to another vocabulary resolves to None. |
| Vocabulary.DescriptionsForeign | model_master.py:34-45 | The two description vocabularies share no value or name. |
| Vocabulary.DescriptionVocabulariesDisjoint | model_master.py:136-137 | Each description field resolves against its own vocabulary only: a token of the other gives None, not an error and not a wrong member. |
| Vocabulary.SunnyIsNoWeatherDesc | model_master.py:136 | `"Sunny"` in `weather_desc` resolves to None. |
| Vocabulary.MatchingIsCaseSensitive | model_master.py:124 | `"cerah"` and `"> 10 KM"` resolve to None: matching ignores no letter case. |
| Json.FalsyValues | model_master.py:109 | Python truthiness: the falsy values are exactly None, False, the zeros, and the empty string, list and dict; infinite and NaN floats are truthy. |
| Json.Or | model_master.py:131 | Python's `a or b` gives one of its operands, the first when it is truthy, and is truthy iff either operand is. |
| Json.OrAssociative | model_master.py:131 | A chain of `or` picks the first truthy operand however it is grouped. |
| Temporal.ParseDateTime | model_master.py:108-117 | Falsy or non-string input gives None. The ISO parser's result wins, then the fixed pattern's. Some iff a non-empty string that one of them accepts. It never raises. |
| Externals.Coerced | model_master.py:54-73 | An optional scalar field holds None iff its value is missing, null or rejected; otherwise it holds the coerced value. |
| Externals.Rejected | model_master.py:152-158 | The keys pydantic rejects: a key is listed iff it is a field whose value is present, not null and not coercible, and the list is empty iff nothing is rejected. The order of the list is not stated. |
| Observation.PrimaryTimestamp | model_master.py:131 | The raw primary timestamp is the first truthy of `cuaca_datetime`, `utc_datetime` and `local_datetime`, or `local_datetime` when none is; it is truthy iff one of the three is. |
| Observation.ParseItem | model_master.py:129-158 | ValidationError iff some scalar value is rejected, listing exactly the rejected scalar keys. Otherwise: every scalar holds the value pydantic stores for its raw value (the coerced value, None for a missing or None one); descriptions resolve through their own vocabularies; secondary timestamps are parsed independently. The primary timestamp is parsed from the first truthy of `cuaca_datetime`, `utc_datetime`, `local_datetime`; later keys are not consulted when that value fails. |
| Observation.ToDict | model_master.py:169-178 | Exactly the non-None fields, each under its own name with its converted value. No key maps to null. |
| Observation.ToDictTimestamps | model_master.py:175-176 | Timestamps are shown as their ISO strings, and only when present. |
| Observation.ToDictDescriptions | model_master.py:173-174 | Description fields are shown as the member's display value. |
| Observation.ToDictScalars | model_master.py:177-178 | Scalar fields are shown unchanged, and only when present. |
| Observation.ParsedIsStored | model_master.py:152-153 | When pydantic's coercion is lawful, every scalar of a parsed record is a value pydantic accepts unchanged. |
| Observation.ParsedDateStable | model_master.py:108-117 | When both parsers return only ISO-stable timestamps, so does `parse_datetime`, for every input. |
| Observation.ParsedDatesStable | model_master.py:129-140 | When both parsers return only ISO-stable timestamps, all four timestamps of a parsed record are ISO-stable. |
| Observation.AbnormalMeansUnparsedPrimary | model_master.py:131 | A parsed record lacks its primary timestamp while holding a secondary one iff the first truthy raw value failed to parse while `utc_datetime` or `local_datetime` parses. |
| Observation.ScalarReparses | model_master.py:132-147 | A rendered scalar is re-read to the same stored value without rejection. |
| Observation.DateReparses | model_master.py:108-117 | An ISO-stable timestamp, or a missing one, rendered by `cuaca_to_dict`, parses back to itself. |
| Observation.ReparseScalars | model_master.py:132-147 | Rendering a record and reading it again yields all twelve scalars unchanged and no ValidationError. |
| Observation.ReparseDescriptions | model_master.py:136-144 | Rendering and re-parsing returns every description member unchanged. |
| Observation.ReparseTimestamps | model_master.py:131 | For a record whose timestamps are ISO-stable, rendering and re-parsing restores the secondary timestamps. The primary comes from the first present of the three. |
| Observation.ReparseIff | model_master.py:129-178 | For a record of stored scalars and ISO-stable timestamps, under any host, `parse_cuaca_item(cuaca_to_dict(c)) == c` iff the record does not lack its primary timestamp while holding a secondary one. |
| Observation.ParseRenderParse | model_master.py:129-178 | When the parsers and the coercion are lawful, a parsed record survives rendering and re-parsing, except when its first truthy raw timestamp failed to parse while a later one parses. |
| Observation.NoFallbackPastTruthyValue | model_master.py:131 | A non-empty `cuaca_datetime` that neither parser accepts leaves the primary timestamp empty, even beside a valid `utc_datetime`. |
| Matrix.Dicts | model_master.py:164 | Keeps exactly the dict entries of a day, in order. |
| Matrix.DictsAppend | model_master.py:164 | Filtering the dict entries commutes with concatenation, so order is kept. |
| Matrix.Traverse | model_master.py:163-166 | A comprehension whose body may raise: Ok iff every element succeeds, with the pointwise results; otherwise the error of the first failing element. |
| Matrix.ParseDay | model_master.py:164 | One record per dict entry. |
| Matrix.ParseDayPointwise | model_master.py:164 | Record j of a parsed day is dict entry j, normalised. |
| Matrix.ParseDayFailsOnAnyEntry | model_master.py:164 | One invalid dict entry makes the whole day raise. |
| Matrix.ParseDayValue | model_master.py:164-165 | A list day is parsed entrywise. A string or dict day iterates to no dicts and gives no records. TypeError iff the day is a number (finite or not), boolean or null. |
| Matrix.Days | model_master.py:198-199 | The days of a list input are its elements; any other input has no days. |
| Matrix.Slot | model_master.py:207-212 | Slot i holds day i iff there are more than i days, and is absent otherwise. |
| Matrix.ParseMatrix | model_master.py:161-166 | One list per day, in order. Ok iff every day parses; otherwise the first day's error. |
| Matrix.ParseListCuaca | model_master.py:193-212 | A non-list input gives three absent (None) slots. Slot i is filled iff there are more than i days, with the records of day i. Ok iff every day parses, also those past the third. |
| Matrix.SlotLengths | model_master.py:207-212 | A filled slot has one record per dict entry of its day. |
| Matrix.LaterDaysIgnored | model_master.py:201-212 | When parsing succeeds, days beyond the third do not affect the result. |
| Matrix.LaterDayStillParsed | model_master.py:201-204 | An invalid day past the third still makes the call raise, although the first three alone would parse exactly when they are valid. |
| Response.DumpAll | model_master.py:76-87 | `model_dump()` of a validated `Lokasi`: every declared field under its own name, holding its value or null. |
| Response.Location | main.py:92-99 | A present `lokasi` is validated as given. A missing one defaults to `{}` and always validates, to the eleven keys all null. |
| Response.ParseLokasi | main.py:92-99 | A non-dict location raises TypeError. A dict raises an error iff some field value is rejected, and that error is a validation error listing exactly the rejected keys. Otherwise all eleven keys are present, each holding its coerced value or null. |
| Response.ForecastRaw | main.py:101 | Without `data`, one empty day. Ok iff `data` is a non-empty list whose first entry is a dict, giving that entry's `cuaca` (default one empty day). An empty list raises IndexError. |
| Response.SerializeSlot | main.py:115-117 | An absent slot gives an empty list. Otherwise one `cuaca_to_dict` per record, in order. |
| Response.SerializeForecast | main.py:114-118 | The keys are exactly `now`, `day1` and `day2`, each the serialised slot. |
| Response.Pipeline | main.py:90-123 | A non-dict body raises AttributeError. For a dict: the location is validated first, then the raw forecast looked up, then parsed, and the result is an error iff one of them raises, the first one's. On success the content is exactly `{"lokasi": <dumped location>, "cuaca": <the three serialised slots of the parsed forecast>}`. |
| Response.Assemble | main.py:87-128 | A failed request, or any exception afterwards, gives the plain-text error carrying that exception. Content holding an infinite or NaN float gives ValueError when `JSONResponse` renders it. A JSON response is given iff everything succeeds and the content is finite, and it is the full result. |
| Response.NonFiniteLongitudeFails | main.py:120-128 | A longitude stored as an infinite or NaN float (from `Infinity`, `NaN` or a number too large for a double) turns the response into the ValueError text when every other step of the pipeline succeeds. |
| Response.NonFiniteLongitudeDumped | model_master.py:85 | A validated location whose longitude is non-finite dumps to a value that cannot be rendered. |
| Response.MissingLocationDefaults | main.py:92-101 | A body without `lokasi` succeeds iff its forecast is found and parses. On success the location is eleven null fields. |
| Response.EmptyBodyDefaults | main.py:92-118 | An empty body gives a location with all eleven fields null and three empty slots. |
| Response.EmptyLocation | main.py:92-99 | A missing `lokasi` validates to all eleven fields, each null. |
| Response.EmptyForecastDefault | main.py:101-118 | A missing `data` key gives one empty day. `now` is an empty list and the other two slots are absent, so all three serialise as empty lists. |
| Response.TwoDaysFillTwoSlots | model_master.py:207-212 | Two days that parse fill `now` and `day1` with their records and leave `day2` absent. |
| Response.EmptyDataFails | main.py:101 | An empty `data` list gives the error response: IndexError when the location is valid. |
| Response.DayFailureFails | main.py:102-128 | An unparsable day anywhere, also past the third, turns the whole response into the error. |
| Response.RecordFailureFails | main.py:102-128 | One rejected record turns the whole response into the error. Valid records elsewhere are not returned. |
| Response.TwoDayExample | main.py:101-118 | `[[{"t": 1}], [{"t": 2}]]` gives `now` = `[{"t": w1}]`, `day1` = `[{"t": w2}]` and an empty `day2`, where `w1` and `w2` are what pydantic stores for 1 and 2 in a `float` field (`1.0` and `2.0` with the real library). |
| Response.OneRecordDay | main.py:115 | A day holding only `{"t": n}` serialises to `[{"t": w}]`, with `w` the stored float for `n`. |
| Response.OnlyTemperature | model_master.py:129-178 | `{"t": n}` parses to a record holding only the stored temperature `w`, and that record renders to `{"t": w}`. |
| Regions.FilterByParent | main.py:136-145 | A record is in the result iff it is in the table and its parent equals the id. A missing parent never matches. |
| Regions.FilterAppend | main.py:136-145 | Filtering commutes with concatenation. |
| Regions.FilterIsSubsequence | main.py:136-145 | The result is a subsequence of the table, so table order is kept. |
| Regions.CitiesByParentId | main.py:135-137 | Exactly the cities whose `province_id` equals the id. |
| Regions.DistrictsByParentId | main.py:139-141 | Exactly the districts whose `city_id` equals the id. |
| Regions.VillagesByParentId | main.py:143-145 | Exactly the villages whose `district_id` equals the id. |
| Regions.LookupsKeepOrder | main.py:135-145 | Each lookup on concatenated tables is the concatenation of the lookups. |
| Items.EmptyStore | main_bc.py:19 | The initial empty store is valid and id-keyed, lists nothing and answers every read with 404. |
| Items.Put | main_bc.py:26 | `db[key] = v` stores `v` under `key` and changes no other entry. A new key goes to the end of the order, and an existing key keeps its place. Validity is preserved. |
| Items.Without | main_bc.py:57 | The order after `del db[key]` lists exactly the other keys, and stays duplicate-free. |
| Items.CreateItem | main_bc.py:22-27 | Returns the item with the given id and the payload's fields and stores it under that id. No other entry changes. A fresh id is appended to the order, and an existing id keeps its place. Validity and id-keying are preserved. |
| Items.ReadItem | main_bc.py:30-35 | Ok iff the id is stored, with the stored item; otherwise 404 "Item not found". |
| Items.ValuesOf | main_bc.py:38-40 | The listed items are stored items, and every stored listed key appears. When every listed key is stored, entry i is the item under the i-th key. |
| Items.ListItems | main_bc.py:38-40 | In a valid store, one entry per stored key, entry i being the item under the i-th inserted key; every stored item appears. |
| Items.UpdateItem | main_bc.py:43-50 | 404 with the store unchanged iff the id is absent. Otherwise that entry is replaced by the payload under the same id, in place, and nothing else changes. |
| Items.DeleteItem | main_bc.py:53-58 | 404 with the store unchanged iff the id is absent. Otherwise exactly that key is removed and the answer is `{"ok": true}`. |
| Items.ReadAfterWrite | main_bc.py:22-58 | A read after create or update sees the written item, a read after delete gets 404, and reads of every other id are unchanged. |
| Items.ValuesOfIgnoresUnlisted | main_bc.py:26 | Storing under an unlisted key does not change the listing of the other keys. |
| Items.ValuesOfAppend | main_bc.py:40 | Listing concatenated orders concatenates the listings. |
| Items.ListAfterCreate | main_bc.py:22-40 | Creating under a fresh id appends the new item to `list_items`. |
| Items.WithoutAbsent | main_bc.py:57 | Removing a key the order does not list leaves the order unchanged. |
| Items.WithoutAppend | main_bc.py:57 | Removing a key from a concatenated order removes it from each part. |
| Items.WithoutAt | main_bc.py:57 | In an order of distinct keys, removing the key at position i closes the gap and keeps the order of the other keys. |
| Items.ValuesOfIgnoresRemoved | main_bc.py:57 | Dropping a key the order does not list does not change the listing. |
| Items.ValuesAround | main_bc.py:40 | When every listed key is stored, the listing before and after position i is the listing of the keys before and after it. |
| Items.ListingAround | main_bc.py:40 | In a valid store, `list_items` before and after position i lists the keys before and after it. |
| Items.ListingWithout | main_bc.py:53-58 | After deleting the key at position i, `list_items` lists the keys before it and then the keys after it, with their old items. |
| Items.ListAfterDeleteAt | main_bc.py:38-58 | After deleting the key at position i, `list_items` is the old listing with entry i cut out. |
| Items.ListAfterDelete | main_bc.py:38-58 | Deleting a stored id shortens the listing by one and removes exactly that item. Every remaining entry was listed before, and the listing is the old one with the entry at the id's position cut out. |

## Left out

- HTTP, FastAPI routing, CORS, `uvicorn` and the network request. The request's outcome is a parameter (`Fetch`): the decoded body, or a failure.
- Loading the region tables from JSON files (`load_*`): the tables are parameters. A load failure yields an empty list, and `list_provinces` returns its table unchanged, so neither has logic to prove.
- The grammar of ISO-8601 and of `%Y-%m-%dT%H:%M:%S`, and `isoformat`'s output format. They are abstract functions in `Host`. Round trips assume only `TimestampsLawful` and `CoercionLawful`.
- Pydantic's coercion rules (for example int to float, or which strings are numbers). Coercion is an abstract function; floats are opaque JSON values.
- Decoding the body text into values (`response.json()`): the body arrives as decoded values. A finite `JFloat` is the value of the double the decoder produced, so a literal that underflows to `0.0` arrives as zero and is falsy. A literal that overflows, and the tokens `Infinity`, `-Infinity` and `NaN`, arrive as `JNonFinite`.
- Validating an already built `Cuaca` or `ListCuaca` again (the `model_dump`/`model_validate` step in `parse_cuaca_matrix_for_listcuaca`). It is taken as the identity, so the manual fallback construction at model_master.py:216-228 is never reached.
- The pydantic v1 branches (`parse_obj`, `.dict()`) and the `vars(c)` branch of `cuaca_to_dict`: pydantic v2 is assumed throughout.
- The `Datum` and `Welcome` classes and the `serialize_model` fallbacks: the code never uses them on its path.
- `uuid4()`: the new item's id is a parameter, and its freshness is not assumed by `CreateItem`.
- The exception text inside the plain-text error: only the exception kind (`PyError`) is kept, and for a validation error the names of the rejected fields.
- The FastAPI validation of request bodies and path parameters (a non-integer parent id or a malformed item payload is rejected before the handler runs).
- Response.Assemble: strings are sequences of Unicode scalar values. A decoded string holding a lone surrogate (from a `\ud800` escape) makes `JSONResponse` fail to encode the content, and that failure is not modelled.
- Response.ForecastRaw: when `data["data"]` is itself a dict, `[0]` on it always raises KeyError, because decoded JSON objects have only string keys; an integer key 0 cannot occur.
- Four behaviours of the code a reader may not expect; the model follows the code:
  - A day that is a number or null raises TypeError and fails the whole response, rather than being skipped.
  - Days past the third are still parsed, so an invalid record there fails the response, although their records are dropped.
  - One invalid record fails the whole response. There is no per-record skipping.
  - The location is serialised with all eleven keys, absent ones as null.

=== FILE: externals.dfy ===
/** The library behaviour the service relies on but does not define:
    `datetime.fromisoformat`, `datetime.strptime` with the pattern
    `%Y-%m-%dT%H:%M:%S`, `datetime.isoformat`, and pydantic's coercion of
    a scalar to a declared field type. The model takes them as parameters
    (a `Host`) and states its results for every choice of them; the two
    facts a round trip needs are `TimestampsLawful` and `CoercionLawful`. */
module Externals {
  import opened Wrappers
  import opened Json

  /** A parsed timestamp (`datetime.datetime`), naive or with a UTC offset. */
  datatype DateTime = DateTime(
    year: int, month: int, day: int,
    hour: int, minute: int, second: int, microsecond: int,
    utcOffsetSeconds: Option<int>)

  /** The declared type of an optional scalar field of a pydantic model. */
  datatype ScalarKind = FloatKind | IntKind | StrKind

  datatype Host = Host(
    /** `datetime.fromisoformat(s)`; None where it raises. */
    fromIsoFormat: string -> Option<DateTime>,
    /** `datetime.strptime(s, "%Y-%m-%dT%H:%M:%S")`; None where it raises. */
    strptime: string -> Option<DateTime>,
    /** `dt.isoformat()`. */
    isoFormat: DateTime -> string,
    /** Pydantic's validation of a non-None value against a field of the
        given kind: the stored value, or None where validation fails. */
    coerce: (ScalarKind, Json) -> Option<Json>)

  /** `dt.isoformat()` is non-empty and `datetime.fromisoformat` reads it
      back as `dt`. */
  predicate IsoStable(h: Host, dt: DateTime) {
    |h.isoFormat(dt)| > 0 && h.fromIsoFormat(h.isoFormat(dt)) == Some(dt)
  }

  /** Every timestamp either parser returns is ISO-stable. Python documents
      `fromisoformat` as the inverse of `isoformat` for every `datetime` the
      library can build, and both parsers only build valid ones (months
      1 to 12, microseconds below one million, and so on). */
  ghost predicate TimestampsLawful(h: Host) {
    && (forall s :: h.fromIsoFormat(s).Some? ==> IsoStable(h, h.fromIsoFormat(s).value))
    && (forall s :: h.strptime(s).Some? ==> IsoStable(h, h.strptime(s).value))
  }

  /** Pydantic never stores None for a non-None input, and it accepts the
      value it stored unchanged: an int stored as `1.0` in a float field is
      stored as `1.0` again. */
  ghost predicate CoercionLawful(h: Host) {
    forall k, v, w :: h.coerce(k, v) == Some(w) ==> w != JNull && h.coerce(k, w) == Some(w)
  }

  /** A timestamp with a month in range, as every real parser returns. */
  const NewYear := DateTime(2024, 1, 1, 0, 0, 0, 0, None)

  /** A small host whose ISO parser accepts one string and whose coercion
      keeps every non-None value; it is only here to show the two laws can
      hold together with calendar-valid parser results. */
  const SampleHost := Host(
    s => if s == "2024-01-01T00:00:00" then Some(NewYear) else None,
    s => None,
    dt => "2024-01-01T00:00:00",
    (k, v) => if v == JNull then None else Some(v))

  /** The laws do not demand a round trip for out-of-range timestamps, so a
      host whose parsers return only months 1 to 12 can satisfy them. */
  lemma SampleHostIsLawful()
    ensures TimestampsLawful(SampleHost) && CoercionLawful(SampleHost)
    ensures forall s :: SampleHost.fromIsoFormat(s).Some? ==> 1 <= SampleHost.fromIsoFormat(s).value.month <= 12
    ensures SampleHost.fromIsoFormat("2024-01-01T00:00:00") == Some(NewYear)
  {
  }

  /** Pydantic rejects the value under `key` for a field of `kind`: it is
      present, not None, and coercion fails. */
  predicate Rejects(h: Host, d: map<string, Json>, key: string, kind: ScalarKind) {
    Get(d, key) != JNull && h.coerce(kind, Get(d, key)).None?
  }

  /** The value an optional scalar field holds after validating `d[key]`:
      None for a missing or None value, the coerced value otherwise. */
  function Coerced(h: Host, d: map<string, Json>, key: string, kind: ScalarKind): (r: Option<Json>)
    ensures r.None? <==> Get(d, key) == JNull || Rejects(h, d, key, kind)
    ensures r.Some? ==> h.coerce(kind, Get(d, key)) == r
  {
    var v := Get(d, key);
    if v == JNull then None else h.coerce(kind, v)
  }

  /** The keys among `fields` whose values pydantic rejects, in field order:
      the content of the ValidationError a model built from `d` raises. */
  function Rejected(h: Host, d: map<string, Json>, fields: seq<(string, ScalarKind)>): (r: seq<string>)
    ensures |r| <= |fields|
    ensures forall k :: k in r <==> exists i :: 0 <= i < |fields| && fields[i].0 == k && Rejects(h, d, k, fields[i].1)
    ensures r == [] <==> forall i :: 0 <= i < |fields| ==> !Rejects(h, d, fields[i].0, fields[i].1)
  {
    if |fields| == 0 then []
    else
      var rest := Rejected(h, d, fields[1..]);
      assert forall i :: 1 <= i < |fields| ==> fields[i] == fields[1..][i - 1];
      if Rejects(h, d, fields[0].0, fields[0].1) then [fields[0].0] + rest else rest
  }
}

=== FILE: items.dfy ===
/** The in-memory item service: a dict from id to `Item`, with create,
    read, list, update and delete. Python dicts keep insertion order, so
    the store is a map together with the order its keys were inserted in.
    Each operation returns the store after it and its result; an operation
    that raises leaves the store as it was. */
module Items {
  import opened Wrappers

  datatype ItemCreate = ItemCreate(name: string, description: Option<string>)
  datatype Item = Item(id: string, name: string, description: Option<string>)

  /** The dict `db`: `items` maps each key to its item, `order` lists the
      keys in insertion order. */
  datatype Store = Store(order: seq<string>, items: map<string, Item>)

  /** `HTTPException(status_code, detail)`. */
  datatype HttpException = HttpException(status: int, detail: string)

  const NotFound: HttpException := HttpException(404, "Item not found")

  /** The body `{"ok": True}` of a successful delete. */
  datatype Ack = Ack(ok: bool)

  datatype Reply<T> = Reply(store: Store, result: Result<T, HttpException>)

  const Empty: Store := Store([], map[])

  /** The store starts valid and id-keyed, with nothing listed. */
  lemma EmptyStore()
    ensures Valid(Empty) && WellKeyed(Empty)
    ensures ListItems(Empty) == [] && forall id :: ReadItem(Empty, id) == Err(NotFound)
  {
  }

  /** The order lists each key once and exactly the keys of the map. */
  ghost predicate Valid(s: Store) {
    && Distinct(s.order)
    && (forall k :: k in s.items <==> k in s.order)
  }

  /** Every stored item carries its own key as id. */
  ghost predicate WellKeyed(s: Store) {
    forall k :: k in s.items ==> s.items[k].id == k
  }

  /** Nothing but the entry under `key` differs between the two maps. */
  ghost predicate OthersUnchanged(a: map<string, Item>, b: map<string, Item>, key: string) {
    forall k :: k != key ==> (k in a <==> k in b) && (k in a ==> a[k] == b[k])
  }

  /** `db[key] = v`: a new key goes to the end of the order, an existing
      key keeps its place. */
  function Put(s: Store, key: string, v: Item): (r: Store)
    ensures key in r.items && r.items[key] == v
    ensures OthersUnchanged(s.items, r.items, key)
    ensures key in s.items ==> r.order == s.order
    ensures key !in s.items ==> r.order == s.order + [key]
    ensures Valid(s) ==> Valid(r)
  {
    if key in s.items then Store(s.order, s.items[key := v])
    else Store(s.order + [key], s.items[key := v])
  }

  ghost predicate Distinct(order: seq<string>) {
    forall i, j :: 0 <= i < j < |order| ==> order[i] != order[j]
  }

  /** `order` without `key`. */
  function Without(order: seq<string>, key: string): (r: seq<string>)
    ensures forall k :: k in r <==> k in order && k != key
    ensures Distinct(order) ==> Distinct(r)
  {
    if |order| == 0 then []
    else
      var rest := Without(order[1..], key);
      assert forall k :: k in order <==> k == order[0] || k in order[1..];
      DistinctTail(order);
      if order[0] == key then rest else [order[0]] + rest
  }

  lemma DistinctTail(order: seq<string>)
    requires |order| > 0
    ensures Distinct(order) ==> Distinct(order[1..]) && order[0] !in order[1..]
  {
  }

  /** Removing a key the order does not list changes nothing. */
  lemma {:induction false} WithoutAbsent(order: seq<string>, key: string)
    requires key !in order
    ensures Without(order, key) == order
  {
    if |order| > 0 {
      WithoutAbsent(order[1..], key);
      assert order == [order[0]] + order[1..];
    }
  }

  /** Removal works piecewise over a concatenation. */
  lemma {:induction false} WithoutAppend(a: seq<string>, b: seq<string>, key: string)
    ensures Without(a + b, key) == Without(a, key) + Without(b, key)
  {
    if |a| == 0 {
      assert a + b == b;
    } else {
      assert (a + b)[1..] == a[1..] + b;
      WithoutAppend(a[1..], b, key);
    }
  }

  /** In a list of distinct keys, removing the key at position `i` closes
      the gap and keeps the order of everything else. */
  lemma WithoutAt(order: seq<string>, key: string, i: int)
    requires Distinct(order)
    requires 0 <= i < |order| && order[i] == key
    ensures Without(order, key) == order[..i] + order[i + 1..]
  {
    var before, after := order[..i], order[i + 1..];
    assert order == before + ([key] + after);
    assert key !in before && key !in after;
    WithoutAppend(before, [key] + after, key);
    WithoutAppend([key], after, key);
    WithoutAbsent(before, key);
    WithoutAbsent(after, key);
    assert Without([key], key) == [];
  }

  /** A list of distinct keys is as long as the set of its keys. */
  lemma {:induction false} DistinctCard(order: seq<string>)
    requires Distinct(order)
    ensures |set k | k in order| == |order|
  {
    if |order| > 0 {
      DistinctTail(order);
      DistinctCard(order[1..]);
      assert (set k | k in order) == {order[0]} + (set k | k in order[1..]);
    }
  }

  /** `create_item(item)` with `id` the generated identifier: stores a new
      item with that id and the payload's fields under `id`, and returns
      it. Freshness of the id is not checked: an existing entry under the
      same id is overwritten. */
  function CreateItem(s: Store, id: string, item: ItemCreate): (r: Reply<Item>)
    ensures r.result == Ok(Item(id, item.name, item.description))
    ensures id in r.store.items && r.store.items[id] == r.result.value
    ensures OthersUnchanged(s.items, r.store.items, id)
    ensures id !in s.items ==> r.store.order == s.order + [id]
    ensures id in s.items ==> r.store.order == s.order
    ensures Valid(s) ==> Valid(r.store)
    ensures WellKeyed(s) ==> WellKeyed(r.store)
  {
    var created := Item(id, item.name, item.description);
    Reply(Put(s, id, created), Ok(created))
  }

  /** `read_item(id)`: the stored item, or 404 when the id is absent. */
  function ReadItem(s: Store, id: string): (r: Result<Item, HttpException>)
    ensures r.Ok? <==> id in s.items
    ensures r.Ok? ==> r.value == s.items[id]
    ensures r.Err? ==> r.error == NotFound
    ensures WellKeyed(s) && r.Ok? ==> r.value.id == id
  {
    if id in s.items then Ok(s.items[id]) else Err(NotFound)
  }

  /** The items stored under the keys of `order`, in that order. */
  function ValuesOf(order: seq<string>, items: map<string, Item>): (r: seq<Item>)
    ensures |r| <= |order|
    ensures (forall k :: k in order ==> k in items) ==> |r| == |order|
    ensures forall x :: x in r ==> x in items.Values
    ensures forall k :: k in order && k in items ==> items[k] in r
    ensures (forall k :: k in order ==> k in items) ==>
              forall i :: 0 <= i < |order| ==> r[i] == items[order[i]]
  {
    if |order| == 0 then []
    else
      var rest := ValuesOf(order[1..], items);
      assert forall k :: k in order <==> k == order[0] || k in order[1..];
      if order[0] in items then [items[order[0]]] + rest else rest
  }

  /** `list(db.values())`: exactly the stored items, one per key, in
      insertion order: entry i is the item under the i-th inserted key. */
  function ListItems(s: Store): (r: seq<Item>)
    ensures forall x :: x in r ==> x in s.items.Values
    ensures Valid(s) ==> |r| == |s.items| && forall k :: k in s.items ==> s.items[k] in r
    ensures Valid(s) ==> |r| == |s.order| && forall i :: 0 <= i < |s.order| ==> r[i] == s.items[s.order[i]]
  {
    StoreSize(s);
    ValuesOf(s.order, s.items)
  }

  /** In a valid store the order is as long as the map is large. */
  lemma StoreSize(s: Store)
    ensures Valid(s) ==> |s.order| == |s.items|
  {
    if Valid(s) {
      DistinctCard(s.order);
      assert s.items.Keys == set k | k in s.order;
    }
  }

  /** `update_item(id, payload)`: 404 with the store unchanged when the id
      is absent; otherwise the entry under `id` becomes an item with the
      same id and the payload's fields, keeping its place, and nothing else
      changes. */
  function UpdateItem(s: Store, id: string, payload: ItemCreate): (r: Reply<Item>)
    ensures r.result.Err? <==> id !in s.items
    ensures r.result.Err? ==> r.result.error == NotFound && r.store == s
    ensures r.result.Ok? ==> && r.result.value == Item(id, payload.name, payload.description)
                             && id in r.store.items && r.store.items[id] == r.result.value
                             && r.store.order == s.order
    ensures OthersUnchanged(s.items, r.store.items, id)
    ensures Valid(s) ==> Valid(r.store)
    ensures WellKeyed(s) ==> WellKeyed(r.store)
  {
    if id !in s.items then Reply(s, Err(NotFound))
    else
      var updated := Item(id, payload.name, payload.description);
      Reply(Put(s, id, updated), Ok(updated))
  }

  /** `delete_item(id)`: 404 with the store unchanged when the id is
      absent; otherwise removes exactly that key and answers `{"ok": True}`. */
  function DeleteItem(s: Store, id: string): (r: Reply<Ack>)
    ensures r.result.Err? <==> id !in s.items
    ensures r.result.Err? ==> r.result.error == NotFound && r.store == s
    ensures r.result.Ok? ==> r.result.value == Ack(true) && id !in r.store.items
    ensures OthersUnchanged(s.items, r.store.items, id)
    ensures Valid(s) ==> Valid(r.store)
    ensures WellKeyed(s) ==> WellKeyed(r.store)
  {
    if id !in s.items then Reply(s, Err(NotFound))
    else Reply(Store(Without(s.order, id), s.items - {id}), Ok(Ack(true)))
  }

  /** What a read sees after each write: the written item under the
      written id, 404 after a delete, and the old answer for every other id. */
  lemma ReadAfterWrite(s: Store, id: string, other: string, payload: ItemCreate)
    requires other != id
    ensures var c := CreateItem(s, id, payload);
      ReadItem(c.store, id) == c.result && ReadItem(c.store, other) == ReadItem(s, other)
    ensures var u := UpdateItem(s, id, payload);
      (id in s.items ==> ReadItem(u.store, id) == u.result) && ReadItem(u.store, other) == ReadItem(s, other)
    ensures var d := DeleteItem(s, id);
      ReadItem(d.store, id) == Err(NotFound) && ReadItem(d.store, other) == ReadItem(s, other)
  {
  }

  /** Adding a key that the order does not list does not change the
      values listed for it. */
  lemma {:induction false} ValuesOfIgnoresUnlisted(order: seq<string>, items: map<string, Item>, key: string, v: Item)
    requires key !in order
    ensures ValuesOf(order, items[key := v]) == ValuesOf(order, items)
  {
    if |order| > 0 {
      ValuesOfIgnoresUnlisted(order[1..], items, key, v);
    }
  }

  lemma {:induction false} ValuesOfAppend(a: seq<string>, b: seq<string>, items: map<string, Item>)
    ensures ValuesOf(a + b, items) == ValuesOf(a, items) + ValuesOf(b, items)
  {
    if |a| == 0 {
      assert a + b == b;
    } else {
      assert (a + b)[1..] == a[1..] + b;
      ValuesOfAppend(a[1..], b, items);
    }
  }

  /** Creating under a fresh id appends the new item to the listing. */
  lemma ListAfterCreate(s: Store, id: string, payload: ItemCreate)
    requires Valid(s)
    requires id !in s.items
    ensures var c := CreateItem(s, id, payload);
      ListItems(c.store) == ListItems(s) + [c.result.value]
  {
    var c := CreateItem(s, id, payload);
    var v := c.result.value;
    var items' := s.items[id := v];
    assert c.store == Store(s.order + [id], items');
    ValuesOfAppend(s.order, [id], items');
    ValuesOfIgnoresUnlisted(s.order, s.items, id, v);
    assert ValuesOf([id], items') == [v];
    calc {
      ListItems(c.store);
      ValuesOf(s.order + [id], items');
      ValuesOf(s.order, items') + ValuesOf([id], items');
      ValuesOf(s.order, s.items) + [v];
    }
  }

  /** Deleting a stored id removes exactly its item from the listing: one
      entry fewer, that item gone, every remaining entry listed before, and
      the listing is the old one with the entry at the id's position cut out. */
  lemma ListAfterDelete(s: Store, id: string)
    requires Valid(s) && WellKeyed(s)
    requires id in s.items
    ensures var d := DeleteItem(s, id);
      && |ListItems(d.store)| == |ListItems(s)| - 1
      && s.items[id] !in ListItems(d.store)
      && (forall x :: x in ListItems(d.store) ==> x in ListItems(s))
      && forall i :: 0 <= i < |s.order| && s.order[i] == id ==>
           ListItems(d.store) == ListItems(s)[..i] + ListItems(s)[i + 1..]
  {
    var d := DeleteItem(s, id);
    assert |d.store.items| == |s.items| - 1;
    forall x | x in ListItems(d.store) ensures x in ListItems(s) && x != s.items[id] {
      var k :| k in d.store.items && d.store.items[k] == x;
      assert k in s.items && s.items[k] == x;
    }
    forall i | 0 <= i < |s.order| && s.order[i] == id
      ensures ListItems(d.store) == ListItems(s)[..i] + ListItems(s)[i + 1..]
    {
      ListAfterDeleteAt(s, id, i);
    }
  }

  lemma ListAfterDeleteAt(s: Store, id: string, i: int)
    requires Valid(s)
    requires 0 <= i < |s.order| && s.order[i] == id
    ensures ListItems(DeleteItem(s, id).store) == ListItems(s)[..i] + ListItems(s)[i + 1..]
  {
    ListingAround(s, i);
    ListingWithout(s, id, i);
  }

  /** The listing splits at position `i` into the values before and after. */
  lemma ListingAround(s: Store, i: int)
    requires Valid(s)
    requires 0 <= i < |s.order|
    ensures ListItems(s)[..i] == ValuesOf(s.order[..i], s.items)
    ensures ListItems(s)[i + 1..] == ValuesOf(s.order[i + 1..], s.items)
  {
    ValuesAround(s.order, s.items, i);
  }

  lemma ValuesAround(order: seq<string>, items: map<string, Item>, i: int)
    requires forall k :: k in order ==> k in items
    requires 0 <= i < |order|
    ensures ValuesOf(order, items)[..i] == ValuesOf(order[..i], items)
    ensures ValuesOf(order, items)[i + 1..] == ValuesOf(order[i + 1..], items)
  {
    var front, mid, back := order[..i], [order[i]], order[i + 1..];
    assert order == front + (mid + back);
    assert forall k :: k in front ==> k in order;
    var a, b := ValuesOf(front, items), ValuesOf(back, items);
    ValuesOfAppend(front, mid + back, items);
    ValuesOfAppend(mid, back, items);
    assert ValuesOf(mid, items) == [items[order[i]]];
    SplitAt(ValuesOf(order, items), a, [items[order[i]]] + b);
  }

  /** A sequence built as `a + ([x] + b)` splits back at `|a|`. */
  lemma SplitAt<T>(listed: seq<T>, a: seq<T>, rest: seq<T>)
    requires listed == a + rest && |rest| > 0
    ensures listed[..|a|] == a && listed[|a| + 1..] == rest[1..]
  {
  }

  /** After the delete the listing is the values before and after the
      deleted key's position, read from the old map. */
  lemma ListingWithout(s: Store, id: string, i: int)
    requires Distinct(s.order) && id in s.items
    requires 0 <= i < |s.order| && s.order[i] == id
    ensures ListItems(DeleteItem(s, id).store) == ValuesOf(s.order[..i], s.items) + ValuesOf(s.order[i + 1..], s.items)
  {
    var front, back := s.order[..i], s.order[i + 1..];
    assert s.order == front + ([id] + back);
    assert id !in front && id !in back;
    WithoutAt(s.order, id, i);
    var rest := s.items - {id};
    assert DeleteItem(s, id).store == Store(front + back, rest);
    ValuesOfAppend(front, back, rest);
    ValuesOfIgnoresRemoved(front, s.items, id);
    ValuesOfIgnoresRemoved(back, s.items, id);
  }

  /** Dropping a key that the order does not list does not change the
      values listed for it. */
  lemma {:induction false} ValuesOfIgnoresRemoved(order: seq<string>, items: map<string, Item>, key: string)
    requires key !in order
    ensures ValuesOf(order, items - {key}) == ValuesOf(order, items)
  {
    if |order| > 0 {
      ValuesOfIgnoresRemoved(order[1..], items, key);
    }
  }
}

=== FILE: json.dfy ===
/** Decoded JSON values, as Python's `json` module hands them to the service,
    together with the Python operations the service applies to them:
    truthiness, `dict.get` and the `or` operator. */
module Json {

  /** A decoded JSON value. `JNull` is Python's `None`. A finite float is
      kept opaque as the decimal `mantissa * 10^exponent` of the double the
      decoder produced; the service never does arithmetic on it and only
      ever asks whether it is zero. The decoder turns a number too large
      for a double, and the tokens `Infinity`, `-Infinity` and `NaN`, into
      the non-finite floats of `JNonFinite`. An object is a Python `dict`
      with string keys. */
  datatype Json =
    | JNull
    | JBool(b: bool)
    | JInt(i: int)
    | JFloat(mantissa: int, exponent: int)
    | JNonFinite(which: NonFinite)
    | JStr(s: string)
    | JArr(elems: seq<Json>)
    | JObj(fields: map<string, Json>)

  datatype NonFinite = PosInf | NegInf | NaN

  /** Python truthiness of a decoded value: None, False, zero, and empty
      strings, lists and dicts are falsy. */
  predicate Truthy(v: Json) {
    match v
    case JNull => false
    case JBool(b) => b
    case JInt(i) => i != 0
    case JFloat(m, _) => m != 0
    case JNonFinite(_) => true
    case JStr(s) => |s| > 0
    case JArr(a) => |a| > 0
    case JObj(m) => |m| > 0
  }

  /** `d.get(key)`: the stored value, or None when the key is missing. */
  function Get(d: map<string, Json>, key: string): Json {
    if key in d then d[key] else JNull
  }

  /** `d.get(key, default)`. */
  function GetOr(d: map<string, Json>, key: string, default: Json): Json {
    if key in d then d[key] else default
  }

  /** No float inside the value, at any depth, is infinite or NaN: the
      condition under which `json.dumps(..., allow_nan=False)` succeeds. */
  predicate Finite(v: Json) {
    match v
    case JNonFinite(_) => false
    case JArr(a) => forall i :: 0 <= i < |a| ==> Finite(a[i])
    case JObj(m) => forall k :: k in m ==> Finite(m[k])
    case _ => true
  }

  /** The falsy values are exactly Python's: None, False, the zeros, and
      the empty string, list and dict. Every non-finite float is truthy. */
  lemma FalsyValues(v: Json)
    ensures !Truthy(v) <==>
              || v in {JNull, JBool(false), JInt(0), JStr(""), JArr([]), JObj(map[])}
              || (v.JFloat? && v.mantissa == 0)
  {
  }

  /** Python's `a or b`: the first operand when it is truthy, else the second. */
  function Or(a: Json, b: Json): (r: Json)
    ensures r == a || r == b
    ensures Truthy(r) <==> Truthy(a) || Truthy(b)
    ensures Truthy(a) ==> r == a
  {
    if Truthy(a) then a else b
  }

  /** A chain `a or b or c` picks the first truthy operand however it is
      grouped. */
  lemma OrAssociative(a: Json, b: Json, c: Json)
    ensures Or(Or(a, b), c) == Or(a, Or(b, c))
  {
  }

  /** The exceptions the modelled code can raise. */
  datatype PyError =
    | ValidationError(fields: seq<string>)   // pydantic rejected these fields
    | TypeError                              // iterating, subscripting or `**`-unpacking the wrong type
    | IndexError                             // `[0]` on an empty list or string
    | KeyError                               // `[0]` on a dict
    | AttributeError                         // `.get` on something that is not a dict
    | ValueError                             // rendering an infinite or NaN float as JSON
    | RequestError                           // the upstream request failed or its body is not JSON
}

=== FILE: matrix.dfy ===
/** `parse_cuaca_matrix` and `parse_cuaca_matrix_for_listcuaca`: the raw
    list of days, each a list of raw entries, reshaped into lists of
    records and into the three positional slots of `ListCuaca`. */
module Matrix {
  import opened Wrappers
  import opened Json
  import opened Externals
  import opened Observation

  /** The forecast grouped by day: index 0 of the raw list is `now`, 1 is
      `day1`, 2 is `day2`. A slot the input does not reach is None. */
  datatype ListCuaca = ListCuaca(now: Option<seq<Cuaca>>, day1: Option<seq<Cuaca>>, day2: Option<seq<Cuaca>>)

  /** The dict entries of a list, in order; every other entry is skipped. */
  function Dicts(items: seq<Json>): (r: seq<map<string, Json>>)
    ensures |r| <= |items|
    ensures forall m :: m in r <==> JObj(m) in items
  {
    if |items| == 0 then []
    else
      var rest := Dicts(items[1..]);
      assert forall v :: v in items <==> v == items[0] || v in items[1..];
      if items[0].JObj? then [items[0].fields] + rest else rest
  }

  /** Keeping the dicts commutes with concatenation, so the entries keep
      their relative order. */
  lemma {:induction false} DictsAppend(a: seq<Json>, b: seq<Json>)
    ensures Dicts(a + b) == Dicts(a) + Dicts(b)
  {
    if |a| == 0 {
      assert a + b == b;
    } else {
      assert (a + b)[1..] == a[1..] + b;
      DictsAppend(a[1..], b);
    }
  }

  /** A list comprehension whose body may raise: the results of `f` on
      every element, in order, or the error of the first element on which
      `f` raises. */
  function Traverse<A, B(==), E(==)>(f: A -> Result<B, E>, xs: seq<A>): (r: Result<seq<B>, E>)
    ensures r.Ok? <==> forall i :: 0 <= i < |xs| ==> f(xs[i]).Ok?
    ensures r.Ok? ==> |r.value| == |xs| && forall i :: 0 <= i < |xs| ==> f(xs[i]) == Ok(r.value[i])
    ensures r.Err? ==> exists i :: 0 <= i < |xs| && f(xs[i]) == Err(r.error)
                                   && forall k :: 0 <= k < i ==> f(xs[k]).Ok?
  {
    if |xs| == 0 then Ok([])
    else
      assert forall i :: 1 <= i < |xs| ==> xs[i] == xs[1..][i - 1];
      match f(xs[0])
      case Err(e) => Err(e)
      case Ok(y) =>
        match Traverse(f, xs[1..])
        case Err(e) =>
          var i :| 0 <= i < |xs[1..]| && f(xs[1..][i]) == Err(e)
                   && forall k :: 0 <= k < i ==> f(xs[1..][k]).Ok?;
          assert f(xs[i + 1]) == Err(e);
          Err(e)
        case Ok(ys) => Ok([y] + ys)
  }

  /** `[parse_cuaca_item(item) for item in day if isinstance(item, dict)]`
      over a list: one record per dict entry, in order, or the error of the
      first dict entry that fails to validate. */
  function ParseDay(h: Host, items: seq<Json>): (r: Result<seq<Cuaca>, PyError>)
    ensures r.Ok? ==> |r.value| == |Dicts(items)|
  {
    Traverse(d => ParseItem(h, d), Dicts(items))
  }

  /** The j-th record of a parsed day is the j-th dict entry, normalised. */
  lemma ParseDayPointwise(h: Host, items: seq<Json>, j: int)
    requires ParseDay(h, items).Ok?
    requires 0 <= j < |Dicts(items)|
    ensures ParseItem(h, Dicts(items)[j]) == Ok(ParseDay(h, items).value[j])
  {
    var f := d => ParseItem(h, d);
    assert f(Dicts(items)[j]) == Ok(ParseDay(h, items).value[j]);
  }

  /** One dict entry that fails to validate makes the whole day raise. */
  lemma ParseDayFailsOnAnyEntry(h: Host, items: seq<Json>, j: int)
    requires 0 <= j < |Dicts(items)|
    requires ParseItem(h, Dicts(items)[j]).Err?
    ensures ParseDay(h, items).Err?
  {
    var f := d => ParseItem(h, d);
    assert f(Dicts(items)[j]).Err?;
  }

  /** Iterating one element of the raw list. A list yields its entries; a
      string yields one-character strings and a dict yields its keys, none
      of which is a dict, so both give an empty day; anything else cannot
      be iterated and raises TypeError. */
  function ParseDayValue(h: Host, day: Json): (r: Result<seq<Cuaca>, PyError>)
    ensures day.JArr? ==> r == ParseDay(h, day.elems)
    ensures day.JStr? || day.JObj? ==> r == Ok([])
    ensures r == Err(TypeError) <==> day.JNull? || day.JBool? || day.JInt? || day.JFloat? || day.JNonFinite?
  {
    match day
    case JArr(items) => ParseDay(h, items)
    case JStr(_) => Ok([])
    case JObj(_) => Ok([])
    case _ => Err(TypeError)
  }

  /** `parse_cuaca_matrix(raw)`: one list of records per day, or the
      error of the first day that raises. */
  function ParseMatrix(h: Host, raw: seq<Json>): (r: Result<seq<seq<Cuaca>>, PyError>)
    ensures r.Ok? <==> forall i :: 0 <= i < |raw| ==> ParseDayValue(h, raw[i]).Ok?
    ensures r.Ok? ==> |r.value| == |raw| && forall i :: 0 <= i < |raw| ==> ParseDayValue(h, raw[i]) == Ok(r.value[i])
    ensures r.Err? ==> exists i :: 0 <= i < |raw| && ParseDayValue(h, raw[i]) == Err(r.error)
                                   && forall k :: 0 <= k < i ==> ParseDayValue(h, raw[k]).Ok?
  {
    Traverse(day => ParseDayValue(h, day), raw)
  }

  /** The days `parse_cuaca_matrix_for_listcuaca` iterates: the input when
      it is a list, no days otherwise. */
  function Days(raw: Json): (r: seq<Json>)
    ensures raw.JArr? ==> r == raw.elems
    ensures !raw.JArr? ==> r == []
  {
    if raw.JArr? then raw.elems else []
  }

  /** The slot for position `i` of the parsed days. */
  function Slot(days: seq<seq<Cuaca>>, i: nat): (r: Option<seq<Cuaca>>)
    ensures r.Some? <==> i < |days|
    ensures r.Some? ==> r.value == days[i]
  {
    if |days| > i then Some(days[i]) else None
  }

  /** `parse_cuaca_matrix_for_listcuaca(raw)`. A non-list input gives three
      absent (None) slots. Slot i is filled exactly when the input has more than i
      days, with the records of day i. Every day is parsed, also those past
      index 2 whose records are then dropped, so an invalid record anywhere
      makes the whole call raise. */
  function ParseListCuaca(h: Host, raw: Json): (r: Result<ListCuaca, PyError>)
    ensures !raw.JArr? ==> r == Ok(ListCuaca(None, None, None))
    ensures r.Ok? <==> forall i :: 0 <= i < |Days(raw)| ==> ParseDayValue(h, Days(raw)[i]).Ok?
    ensures r.Ok? ==> (r.value.now.Some? <==> |Days(raw)| > 0)
                      && (r.value.day1.Some? <==> |Days(raw)| > 1)
                      && (r.value.day2.Some? <==> |Days(raw)| > 2)
    ensures r.Ok? && |Days(raw)| > 0 ==> ParseDayValue(h, Days(raw)[0]) == Ok(r.value.now.value)
    ensures r.Ok? && |Days(raw)| > 1 ==> ParseDayValue(h, Days(raw)[1]) == Ok(r.value.day1.value)
    ensures r.Ok? && |Days(raw)| > 2 ==> ParseDayValue(h, Days(raw)[2]) == Ok(r.value.day2.value)
  {
    var days :- ParseMatrix(h, Days(raw));
    Ok(ListCuaca(Slot(days, 0), Slot(days, 1), Slot(days, 2)))
  }

  /** Each filled slot holds one record per dict entry of its day. */
  lemma SlotLengths(h: Host, raw: Json)
    requires ParseListCuaca(h, raw).Ok?
    ensures var lc := ParseListCuaca(h, raw).value;
      && (lc.now.Some? && Days(raw)[0].JArr? ==> |lc.now.value| == |Dicts(Days(raw)[0].elems)|)
      && (lc.day1.Some? && Days(raw)[1].JArr? ==> |lc.day1.value| == |Dicts(Days(raw)[1].elems)|)
      && (lc.day2.Some? && Days(raw)[2].JArr? ==> |lc.day2.value| == |Dicts(Days(raw)[2].elems)|)
  {
  }

  /** Days past index 2 do not reach the result: once the whole input
      parses, dropping them changes nothing. */
  lemma LaterDaysIgnored(h: Host, days: seq<Json>)
    requires |days| >= 3
    requires ParseListCuaca(h, JArr(days)).Ok?
    ensures ParseListCuaca(h, JArr(days)) == ParseListCuaca(h, JArr(days[..3]))
  {
    assert Days(JArr(days[..3])) == days[..3];
    assert forall i :: 0 <= i < 3 ==> days[..3][i] == days[i];
  }

  /** ... but they are still parsed: a day past index 2 that raises makes
      the whole call raise, although none of its records would be kept. */
  lemma LaterDayStillParsed(h: Host, days: seq<Json>, i: int)
    requires 3 <= i < |days|
    requires ParseDayValue(h, days[i]).Err?
    ensures ParseListCuaca(h, JArr(days)).Err?
    ensures ParseListCuaca(h, JArr(days[..3])).Ok? <==> forall k :: 0 <= k < 3 ==> ParseDayValue(h, days[k]).Ok?
  {
    assert Days(JArr(days[..3])) == days[..3];
    assert forall k :: 0 <= k < 3 ==> days[..3][k] == days[k];
  }
}

=== FILE: observation.dfy ===
/** The `Cuaca` record (one forecast entry), `parse_cuaca_item`, which
    normalises one raw mapping into it, and `cuaca_to_dict`, which renders
    it back to JSON. */
module Observation {
  import opened Wrappers
  import opened Json
  import opened Externals
  import opened Vocabulary
  import opened Temporal

  /** One forecast entry. Every field is independently optional. Scalar
      fields keep the JSON value pydantic stored; the description fields
      hold a member of their own vocabulary; the timestamps are parsed. */
  datatype Cuaca = Cuaca(
    cuacaDatetime: Option<DateTime>,
    t: Option<Json>,
    tcc: Option<Json>,
    tp: Option<Json>,
    weather: Option<Json>,
    weatherDesc: Option<WeatherDesc>,
    weatherDescEn: Option<WeatherDescEn>,
    wdDeg: Option<Json>,
    wd: Option<Json>,
    wdTo: Option<Json>,
    ws: Option<Json>,
    hu: Option<Json>,
    vs: Option<Json>,
    vsText: Option<VsText>,
    timeIndex: Option<Json>,
    analysisDate: Option<DateTime>,
    image: Option<Json>,
    utcDatetime: Option<DateTime>,
    localDatetime: Option<DateTime>)

  /** The scalar fields with their declared types, in declaration order. */
  const ScalarFields: seq<(string, ScalarKind)> := [
    ("t", FloatKind), ("tcc", IntKind), ("tp", FloatKind), ("weather", IntKind),
    ("wd_deg", IntKind), ("wd", StrKind), ("wd_to", StrKind), ("ws", FloatKind),
    ("hu", IntKind), ("vs", IntKind), ("time_index", StrKind), ("image", StrKind)]

  /** The raw value the primary timestamp is parsed from:
      `cuaca_datetime or utc_datetime or local_datetime`. */
  function PrimaryTimestamp(d: map<string, Json>): (r: Json)
    ensures Truthy(Get(d, "cuaca_datetime")) ==> r == Get(d, "cuaca_datetime")
    ensures !Truthy(Get(d, "cuaca_datetime")) && Truthy(Get(d, "utc_datetime")) ==> r == Get(d, "utc_datetime")
    ensures !Truthy(Get(d, "cuaca_datetime")) && !Truthy(Get(d, "utc_datetime")) ==> r == Get(d, "local_datetime")
    ensures Truthy(r) <==> Truthy(Get(d, "cuaca_datetime")) || Truthy(Get(d, "utc_datetime")) || Truthy(Get(d, "local_datetime"))
  {
    Or(Or(Get(d, "cuaca_datetime"), Get(d, "utc_datetime")), Get(d, "local_datetime"))
  }

  /** `parse_cuaca_item(d)`. It raises a ValidationError, naming the
      offending keys, exactly when pydantic rejects some scalar value.
      Otherwise every scalar holds what validating its raw value stores
      (None exactly for a missing or None value), each description
      resolves against its own vocabulary only (an unknown token gives None),
      the three secondary timestamps are parsed independently, and the
      primary timestamp comes from the first TRUTHY of `cuaca_datetime`,
      `utc_datetime`, `local_datetime`: a truthy value that fails to parse
      gives None and the later keys are not consulted. */
  function ParseItem(h: Host, d: map<string, Json>): (r: Result<Cuaca, PyError>)
    ensures r.Err? <==> exists i :: 0 <= i < |ScalarFields| && Rejects(h, d, ScalarFields[i].0, ScalarFields[i].1)
    ensures r.Err? ==> r.error.ValidationError? && |r.error.fields| > 0
    ensures r.Err? ==> forall k :: k in r.error.fields <==>
              exists i :: 0 <= i < |ScalarFields| && ScalarFields[i].0 == k && Rejects(h, d, k, ScalarFields[i].1)
                       && forall k :: k in r.error.fields ==> exists i :: 0 <= i < |ScalarFields| && ScalarFields[i].0 == k
    ensures r.Ok? ==>
      var c := r.value;
      && c.t == Coerced(h, d, "t", FloatKind) && c.tcc == Coerced(h, d, "tcc", IntKind)
      && c.tp == Coerced(h, d, "tp", FloatKind) && c.weather == Coerced(h, d, "weather", IntKind)
      && c.wdDeg == Coerced(h, d, "wd_deg", IntKind) && c.wd == Coerced(h, d, "wd", StrKind)
      && c.wdTo == Coerced(h, d, "wd_to", StrKind) && c.ws == Coerced(h, d, "ws", FloatKind)
      && c.hu == Coerced(h, d, "hu", IntKind) && c.vs == Coerced(h, d, "vs", IntKind)
      && c.timeIndex == Coerced(h, d, "time_index", StrKind) && c.image == Coerced(h, d, "image", StrKind)
      && c.weatherDesc == ParseWeatherDesc(Get(d, "weather_desc"))
      && c.weatherDescEn == ParseWeatherDescEn(Get(d, "weather_desc_en"))
      && c.vsText == ParseVsText(Get(d, "vs_text"))
      && c.analysisDate == ParseDateTime(h, Get(d, "analysis_date"))
      && c.utcDatetime == ParseDateTime(h, Get(d, "utc_datetime"))
      && c.localDatetime == ParseDateTime(h, Get(d, "local_datetime"))
      && (Truthy(Get(d, "cuaca_datetime")) ==> c.cuacaDatetime == ParseDateTime(h, Get(d, "cuaca_datetime")))
      && (!Truthy(Get(d, "cuaca_datetime")) && Truthy(Get(d, "utc_datetime")) ==> c.cuacaDatetime == c.utcDatetime)
      && (!Truthy(Get(d, "cuaca_datetime")) && !Truthy(Get(d, "utc_datetime")) ==> c.cuacaDatetime == c.localDatetime)
  {
    var bad := Rejected(h, d, ScalarFields);
    if bad != [] then
      assert bad[0] in bad;
      Err(ValidationError(bad))
    else
      ScalarsAccepted(h, d);
      Ok(Cuaca(
        ParseDateTime(h, PrimaryTimestamp(d)),
        Coerced(h, d, "t", FloatKind),
        Coerced(h, d, "tcc", IntKind),
        Coerced(h, d, "tp", FloatKind),
        Coerced(h, d, "weather", IntKind),
        ParseWeatherDesc(Get(d, "weather_desc")),
        ParseWeatherDescEn(Get(d, "weather_desc_en")),
        Coerced(h, d, "wd_deg", IntKind),
        Coerced(h, d, "wd", StrKind),
        Coerced(h, d, "wd_to", StrKind),
        Coerced(h, d, "ws", FloatKind),
        Coerced(h, d, "hu", IntKind),
        Coerced(h, d, "vs", IntKind),
        ParseVsText(Get(d, "vs_text")),
        Coerced(h, d, "time_index", StrKind),
        ParseDateTime(h, Get(d, "analysis_date")),
        Coerced(h, d, "image", StrKind),
        ParseDateTime(h, Get(d, "utc_datetime")),
        ParseDateTime(h, Get(d, "local_datetime"))))
  }

  /** No scalar key is rejected, spelt out key by key. */
  lemma ScalarsAccepted(h: Host, d: map<string, Json>)
    requires Rejected(h, d, ScalarFields) == []
    ensures !Rejects(h, d, "t", FloatKind) && !Rejects(h, d, "tcc", IntKind)
    ensures !Rejects(h, d, "tp", FloatKind) && !Rejects(h, d, "weather", IntKind)
    ensures !Rejects(h, d, "wd_deg", IntKind) && !Rejects(h, d, "wd", StrKind)
    ensures !Rejects(h, d, "wd_to", StrKind) && !Rejects(h, d, "ws", FloatKind)
    ensures !Rejects(h, d, "hu", IntKind) && !Rejects(h, d, "vs", IntKind)
    ensures !Rejects(h, d, "time_index", StrKind) && !Rejects(h, d, "image", StrKind)
  {
    var fs := ScalarFields;
    assert !Rejects(h, d, fs[0].0, fs[0].1) && !Rejects(h, d, fs[1].0, fs[1].1);
    assert !Rejects(h, d, fs[2].0, fs[2].1) && !Rejects(h, d, fs[3].0, fs[3].1);
    assert !Rejects(h, d, fs[4].0, fs[4].1) && !Rejects(h, d, fs[5].0, fs[5].1);
    assert !Rejects(h, d, fs[6].0, fs[6].1) && !Rejects(h, d, fs[7].0, fs[7].1);
    assert !Rejects(h, d, fs[8].0, fs[8].1) && !Rejects(h, d, fs[9].0, fs[9].1);
    assert !Rejects(h, d, fs[10].0, fs[10].1) && !Rejects(h, d, fs[11].0, fs[11].1);
  }

  /** The `conv` step of `cuaca_to_dict` for each kind of field: a
      timestamp becomes its ISO string, an enum member its display value,
      anything else is kept. */
  function DateValue(h: Host, f: Option<DateTime>): Option<Json> {
    if f.Some? then Some(JStr(h.isoFormat(f.value))) else None
  }

  function DescValue(f: Option<WeatherDesc>): Option<Json> {
    if f.Some? then Some(JStr(f.value.Value())) else None
  }

  function DescEnValue(f: Option<WeatherDescEn>): Option<Json> {
    if f.Some? then Some(JStr(f.value.Value())) else None
  }

  function VsTextValue(f: Option<VsText>): Option<Json> {
    if f.Some? then Some(JStr(f.value.Value())) else None
  }

  /** The output dict shows the converted field `f` under `key` exactly
      when it is not None. */
  predicate Renders(r: map<string, Json>, key: string, f: Option<Json>) {
    && (key in r <==> f.Some? && f.value != JNull)
    && (key in r ==> r[key] == f.value)
  }

  /** The value `model_dump` gives for the field named `key`, after `conv`. */
  function Dumped(h: Host, c: Cuaca, key: string): Option<Json> {
    if key == "cuaca_datetime" then DateValue(h, c.cuacaDatetime)
    else if key == "t" then c.t
    else if key == "tcc" then c.tcc
    else if key == "tp" then c.tp
    else if key == "weather" then c.weather
    else if key == "weather_desc" then DescValue(c.weatherDesc)
    else if key == "weather_desc_en" then DescEnValue(c.weatherDescEn)
    else if key == "wd_deg" then c.wdDeg
    else if key == "wd" then c.wd
    else if key == "wd_to" then c.wdTo
    else if key == "ws" then c.ws
    else if key == "hu" then c.hu
    else if key == "vs" then c.vs
    else if key == "vs_text" then VsTextValue(c.vsText)
    else if key == "time_index" then c.timeIndex
    else if key == "analysis_date" then DateValue(h, c.analysisDate)
    else if key == "image" then c.image
    else if key == "utc_datetime" then DateValue(h, c.utcDatetime)
    else if key == "local_datetime" then DateValue(h, c.localDatetime)
    else None
  }

  /** The JSON keys of the record. */
  const FieldNames: set<string> := {
    "cuaca_datetime", "t", "tcc", "tp", "weather", "weather_desc", "weather_desc_en",
    "wd_deg", "wd", "wd_to", "ws", "hu", "vs", "vs_text", "time_index",
    "analysis_date", "image", "utc_datetime", "local_datetime"}

  /** `cuaca_to_dict(c)` (the `model_dump` branch): exactly the fields that
      are not None, each under its own name and with its converted value;
      no key maps to null. */
  function ToDict(h: Host, c: Cuaca): (r: map<string, Json>)
    ensures forall k :: k in r ==> k in FieldNames && r[k] != JNull
    ensures forall k :: k in FieldNames ==> Renders(r, k, Dumped(h, c, k))
  {
    map k | k in FieldNames && Dumped(h, c, k).Some? && Dumped(h, c, k).value != JNull :: Dumped(h, c, k).value
  }

  /** What `cuaca_to_dict` shows for each timestamp: its ISO string, or
      nothing when the field is None. */
  lemma ToDictTimestamps(h: Host, c: Cuaca)
    ensures var r := ToDict(h, c);
      && Renders(r, "cuaca_datetime", DateValue(h, c.cuacaDatetime))
      && Renders(r, "analysis_date", DateValue(h, c.analysisDate))
      && Renders(r, "utc_datetime", DateValue(h, c.utcDatetime))
      && Renders(r, "local_datetime", DateValue(h, c.localDatetime))
  {
  }

  /** What `cuaca_to_dict` shows for each description: the member's display
      value, never its name. */
  lemma ToDictDescriptions(h: Host, c: Cuaca)
    ensures var r := ToDict(h, c);
      && Renders(r, "weather_desc", DescValue(c.weatherDesc))
      && Renders(r, "weather_desc_en", DescEnValue(c.weatherDescEn))
      && Renders(r, "vs_text", VsTextValue(c.vsText))
  {
  }

  /** `cuaca_to_dict` shows every scalar value unchanged. */
  lemma ToDictScalars(h: Host, c: Cuaca)
    ensures var r := ToDict(h, c);
      && Renders(r, "t", c.t) && Renders(r, "tcc", c.tcc) && Renders(r, "tp", c.tp)
      && Renders(r, "weather", c.weather) && Renders(r, "wd_deg", c.wdDeg)
      && Renders(r, "wd", c.wd) && Renders(r, "wd_to", c.wdTo) && Renders(r, "ws", c.ws)
      && Renders(r, "hu", c.hu) && Renders(r, "vs", c.vs)
      && Renders(r, "time_index", c.timeIndex) && Renders(r, "image", c.image)
  {
  }

  /** A scalar field holds what pydantic would store for it: never None
      inside `Some`, and a value pydantic accepts unchanged. */
  ghost predicate StoredAs(h: Host, kind: ScalarKind, f: Option<Json>) {
    f.Some? ==> f.value != JNull && h.coerce(kind, f.value) == f
  }

  ghost predicate Stored(h: Host, c: Cuaca) {
    && StoredAs(h, FloatKind, c.t) && StoredAs(h, IntKind, c.tcc) && StoredAs(h, FloatKind, c.tp)
    && StoredAs(h, IntKind, c.weather) && StoredAs(h, IntKind, c.wdDeg) && StoredAs(h, StrKind, c.wd)
    && StoredAs(h, StrKind, c.wdTo) && StoredAs(h, FloatKind, c.ws) && StoredAs(h, IntKind, c.hu)
    && StoredAs(h, IntKind, c.vs) && StoredAs(h, StrKind, c.timeIndex) && StoredAs(h, StrKind, c.image)
  }

  /** The primary timestamp is missing only when the secondary ones are:
      the record is what `parse_cuaca_item` makes of its own output. */
  predicate Normal(c: Cuaca) {
    c.cuacaDatetime.None? ==> c.utcDatetime.None? && c.localDatetime.None?
  }

  /** Every timestamp of the record is ISO-stable under the host. */
  ghost predicate DatesStable(h: Host, c: Cuaca) {
    && DateStable(h, c.cuacaDatetime) && DateStable(h, c.analysisDate)
    && DateStable(h, c.utcDatetime) && DateStable(h, c.localDatetime)
  }

  predicate DateStable(h: Host, f: Option<DateTime>) {
    f.Some? ==> IsoStable(h, f.value)
  }

  /** Under lawful coercion every record `parse_cuaca_item` returns holds
      stored scalars. */
  lemma ParsedIsStored(h: Host, d: map<string, Json>)
    requires CoercionLawful(h)
    requires ParseItem(h, d).Ok?
    ensures Stored(h, ParseItem(h, d).value)
  {
  }

  /** A record is abnormal only when the first truthy timestamp value
      fails to parse: a non-empty `cuaca_datetime` the parsers reject hides
      a valid `utc_datetime` instead of falling back to it. */
  lemma AbnormalMeansUnparsedPrimary(h: Host, d: map<string, Json>)
    requires ParseItem(h, d).Ok?
    ensures !Normal(ParseItem(h, d).value) <==>
              && Truthy(PrimaryTimestamp(d))
              && ParseDateTime(h, PrimaryTimestamp(d)).None?
              && (ParseDateTime(h, Get(d, "utc_datetime")).Some? || ParseDateTime(h, Get(d, "local_datetime")).Some?)
  {
  }

  lemma ScalarReparses(h: Host, r: map<string, Json>, key: string, kind: ScalarKind, f: Option<Json>)
    requires StoredAs(h, kind, f)
    requires Renders(r, key, f)
    ensures !Rejects(h, r, key, kind) && Coerced(h, r, key, kind) == f
  {
  }

  /** Whatever `parse_datetime` returns is ISO-stable when the parsers are. */
  lemma ParsedDateStable(h: Host, v: Json)
    requires TimestampsLawful(h)
    ensures DateStable(h, ParseDateTime(h, v))
  {
    if v.JStr? && |v.s| > 0 {
      if h.fromIsoFormat(v.s).Some? {
        assert ParseDateTime(h, v) == h.fromIsoFormat(v.s);
      } else {
        assert ParseDateTime(h, v) == h.strptime(v.s);
      }
    }
  }

  /** Under lawful parsers every timestamp of a parsed record is ISO-stable. */
  lemma ParsedDatesStable(h: Host, d: map<string, Json>)
    requires TimestampsLawful(h)
    requires ParseItem(h, d).Ok?
    ensures DatesStable(h, ParseItem(h, d).value)
  {
    ParsedDateStable(h, Get(d, "cuaca_datetime"));
    ParsedDateStable(h, Get(d, "analysis_date"));
    ParsedDateStable(h, Get(d, "utc_datetime"));
    ParsedDateStable(h, Get(d, "local_datetime"));
  }

  lemma DateReparses(h: Host, r: map<string, Json>, key: string, f: Option<DateTime>)
    requires DateStable(h, f)
    requires Renders(r, key, DateValue(h, f))
    ensures ParseDateTime(h, Get(r, key)) == f
  {
    if f.Some? {
      assert Get(r, key) == JStr(h.isoFormat(f.value));
    }
  }

  /** The first six scalars survive rendering and re-reading. */
  lemma ReparseLeadingScalars(h: Host, c: Cuaca)
    requires Stored(h, c)
    ensures var r := ToDict(h, c);
      && !Rejects(h, r, "t", FloatKind) && Coerced(h, r, "t", FloatKind) == c.t
      && !Rejects(h, r, "tcc", IntKind) && Coerced(h, r, "tcc", IntKind) == c.tcc
      && !Rejects(h, r, "tp", FloatKind) && Coerced(h, r, "tp", FloatKind) == c.tp
      && !Rejects(h, r, "weather", IntKind) && Coerced(h, r, "weather", IntKind) == c.weather
      && !Rejects(h, r, "wd_deg", IntKind) && Coerced(h, r, "wd_deg", IntKind) == c.wdDeg
      && !Rejects(h, r, "wd", StrKind) && Coerced(h, r, "wd", StrKind) == c.wd
  {
    var r := ToDict(h, c);
    ToDictScalars(h, c);
    ScalarReparses(h, r, "t", FloatKind, c.t);
    ScalarReparses(h, r, "tcc", IntKind, c.tcc);
    ScalarReparses(h, r, "tp", FloatKind, c.tp);
    ScalarReparses(h, r, "weather", IntKind, c.weather);
    ScalarReparses(h, r, "wd_deg", IntKind, c.wdDeg);
    ScalarReparses(h, r, "wd", StrKind, c.wd);
  }

  /** The last six scalars survive rendering and re-reading. */
  lemma ReparseTrailingScalars(h: Host, c: Cuaca)
    requires Stored(h, c)
    ensures var r := ToDict(h, c);
      && !Rejects(h, r, "wd_to", StrKind) && Coerced(h, r, "wd_to", StrKind) == c.wdTo
      && !Rejects(h, r, "ws", FloatKind) && Coerced(h, r, "ws", FloatKind) == c.ws
      && !Rejects(h, r, "hu", IntKind) && Coerced(h, r, "hu", IntKind) == c.hu
      && !Rejects(h, r, "vs", IntKind) && Coerced(h, r, "vs", IntKind) == c.vs
      && !Rejects(h, r, "time_index", StrKind) && Coerced(h, r, "time_index", StrKind) == c.timeIndex
      && !Rejects(h, r, "image", StrKind) && Coerced(h, r, "image", StrKind) == c.image
  {
    var r := ToDict(h, c);
    ToDictScalars(h, c);
    ScalarReparses(h, r, "wd_to", StrKind, c.wdTo);
    ScalarReparses(h, r, "ws", FloatKind, c.ws);
    ScalarReparses(h, r, "hu", IntKind, c.hu);
    ScalarReparses(h, r, "vs", IntKind, c.vs);
    ScalarReparses(h, r, "time_index", StrKind, c.timeIndex);
    ScalarReparses(h, r, "image", StrKind, c.image);
  }

  lemma ReparseScalars(h: Host, c: Cuaca)
    requires Stored(h, c)
    ensures var r := ToDict(h, c);
      && (forall i :: 0 <= i < |ScalarFields| ==> !Rejects(h, r, ScalarFields[i].0, ScalarFields[i].1))
      && Coerced(h, r, "t", FloatKind) == c.t && Coerced(h, r, "tcc", IntKind) == c.tcc
      && Coerced(h, r, "tp", FloatKind) == c.tp && Coerced(h, r, "weather", IntKind) == c.weather
      && Coerced(h, r, "wd_deg", IntKind) == c.wdDeg && Coerced(h, r, "wd", StrKind) == c.wd
      && Coerced(h, r, "wd_to", StrKind) == c.wdTo && Coerced(h, r, "ws", FloatKind) == c.ws
      && Coerced(h, r, "hu", IntKind) == c.hu && Coerced(h, r, "vs", IntKind) == c.vs
      && Coerced(h, r, "time_index", StrKind) == c.timeIndex && Coerced(h, r, "image", StrKind) == c.image
  {
    ReparseLeadingScalars(h, c);
    ReparseTrailingScalars(h, c);
    NoScalarRejected(h, ToDict(h, c));
  }

  /** The twelve scalar keys one by one, collected into one statement
      about `ScalarFields`. */
  lemma NoScalarRejected(h: Host, r: map<string, Json>)
    requires !Rejects(h, r, "t", FloatKind) && !Rejects(h, r, "tcc", IntKind)
    requires !Rejects(h, r, "tp", FloatKind) && !Rejects(h, r, "weather", IntKind)
    requires !Rejects(h, r, "wd_deg", IntKind) && !Rejects(h, r, "wd", StrKind)
    requires !Rejects(h, r, "wd_to", StrKind) && !Rejects(h, r, "ws", FloatKind)
    requires !Rejects(h, r, "hu", IntKind) && !Rejects(h, r, "vs", IntKind)
    requires !Rejects(h, r, "time_index", StrKind) && !Rejects(h, r, "image", StrKind)
    ensures forall i :: 0 <= i < |ScalarFields| ==> !Rejects(h, r, ScalarFields[i].0, ScalarFields[i].1)
  {
  }

  lemma ReparseDescriptions(h: Host, c: Cuaca)
    ensures var r := ToDict(h, c);
      && ParseWeatherDesc(Get(r, "weather_desc")) == c.weatherDesc
      && ParseWeatherDescEn(Get(r, "weather_desc_en")) == c.weatherDescEn
      && ParseVsText(Get(r, "vs_text")) == c.vsText
  {
    ToDictDescriptions(h, c);
    if c.weatherDesc.Some? { WeatherDescResolves(c.weatherDesc.value); }
    if c.weatherDescEn.Some? { WeatherDescEnResolves(c.weatherDescEn.value); }
    if c.vsText.Some? { VsTextResolves(c.vsText.value); }
  }

  lemma ReparseTimestamps(h: Host, c: Cuaca)
    requires DatesStable(h, c)
    ensures var r := ToDict(h, c);
      && ParseDateTime(h, Get(r, "analysis_date")) == c.analysisDate
      && ParseDateTime(h, Get(r, "utc_datetime")) == c.utcDatetime
      && ParseDateTime(h, Get(r, "local_datetime")) == c.localDatetime
      && ParseDateTime(h, PrimaryTimestamp(r)) ==
           if c.cuacaDatetime.Some? then c.cuacaDatetime
           else if c.utcDatetime.Some? then c.utcDatetime
           else c.localDatetime
  {
    var r := ToDict(h, c);
    ToDictTimestamps(h, c);
    DateReparses(h, r, "cuaca_datetime", c.cuacaDatetime);
    DateReparses(h, r, "analysis_date", c.analysisDate);
    DateReparses(h, r, "utc_datetime", c.utcDatetime);
    DateReparses(h, r, "local_datetime", c.localDatetime);
    if c.cuacaDatetime.Some? {
      assert |h.isoFormat(c.cuacaDatetime.value)| > 0;
    } else if c.utcDatetime.Some? {
      assert |h.isoFormat(c.utcDatetime.value)| > 0;
    }
  }

  /** Rendering a record with `cuaca_to_dict` and parsing the dict again
      with `parse_cuaca_item` gives the record back exactly when it is
      normal. An abnormal record comes back with its primary timestamp
      filled from `utc_datetime` or `local_datetime`. */
  lemma ReparseIff(h: Host, c: Cuaca)
    requires Stored(h, c) && DatesStable(h, c)
    ensures ParseItem(h, ToDict(h, c)) == Ok(c) <==> Normal(c)
  {
    var r := ToDict(h, c);
    ReparseScalars(h, c);
    ReparseDescriptions(h, c);
    ReparseTimestamps(h, c);
    var c' := ParseItem(h, r).value;
    if Normal(c) {
      assert c' == c;
    } else {
      assert c'.cuacaDatetime.Some?;
    }
  }

  /** Under lawful parsers and coercion, rendering a parsed record and
      parsing it again reproduces it, except when the first truthy timestamp
      value failed to parse while a later one parses. */
  lemma ParseRenderParse(h: Host, d: map<string, Json>)
    requires TimestampsLawful(h) && CoercionLawful(h)
    requires ParseItem(h, d).Ok?
    ensures var c := ParseItem(h, d).value;
      ParseItem(h, ToDict(h, c)) == Ok(c) <==>
        !(&& Truthy(PrimaryTimestamp(d))
          && ParseDateTime(h, PrimaryTimestamp(d)).None?
          && (ParseDateTime(h, Get(d, "utc_datetime")).Some? || ParseDateTime(h, Get(d, "local_datetime")).Some?))
  {
    ParsedIsStored(h, d);
    ParsedDatesStable(h, d);
    ReparseIff(h, ParseItem(h, d).value);
    AbnormalMeansUnparsedPrimary(h, d);
  }

  /** A non-empty `cuaca_datetime` that neither parser accepts leaves the
      primary timestamp empty even when `utc_datetime` parses. */
  lemma NoFallbackPastTruthyValue(h: Host, bad: string, utc: string)
    requires |bad| > 0 && h.fromIsoFormat(bad).None? && h.strptime(bad).None?
    requires |utc| > 0 && h.fromIsoFormat(utc).Some?
    ensures var d := map["cuaca_datetime" := JStr(bad), "utc_datetime" := JStr(utc)];
      && ParseItem(h, d).Ok?
      && ParseItem(h, d).value.cuacaDatetime.None?
      && ParseItem(h, d).value.utcDatetime == h.fromIsoFormat(utc)
  {
    var d := map["cuaca_datetime" := JStr(bad), "utc_datetime" := JStr(utc)];
    assert forall i :: 0 <= i < |ScalarFields| ==> Get(d, ScalarFields[i].0) == JNull;
  }
}

=== FILE: regions.dfy ===
/** The static region tables and the three lookups by parent id. The
    tables are loaded once from files and never changed; the model takes
    them as given sequences. */
module Regions {
  import opened Wrappers

  datatype Province = Province(id: int, code: Option<string>, name: Option<string>)
  datatype City = City(id: int, provinceId: Option<int>, code: Option<string>, name: Option<string>)
  datatype District = District(id: int, cityId: Option<int>, code: Option<string>, name: Option<string>)
  datatype Village = Village(id: int, code: Option<string>, districtId: Option<int>, name: Option<string>)

  /** `[r for r in table if parent_of(r) == parent_id]`. A record whose
      parent is None never equals an integer id. */
  function FilterByParent<R(!new)>(table: seq<R>, parentOf: R -> Option<int>, parentId: int): (r: seq<R>)
    ensures |r| <= |table|
    ensures forall x :: x in r <==> x in table && parentOf(x) == Some(parentId)
  {
    if |table| == 0 then []
    else
      var rest := FilterByParent(table[1..], parentOf, parentId);
      assert forall x :: x in table <==> x == table[0] || x in table[1..];
      if parentOf(table[0]) == Some(parentId) then [table[0]] + rest else rest
  }

  /** The filter keeps the table order: filtering a concatenation is the
      concatenation of the filtered parts. */
  lemma {:induction false} FilterAppend<R(!new)>(a: seq<R>, b: seq<R>, parentOf: R -> Option<int>, parentId: int)
    ensures FilterByParent(a + b, parentOf, parentId)
         == FilterByParent(a, parentOf, parentId) + FilterByParent(b, parentOf, parentId)
  {
    if |a| == 0 {
      assert a + b == b;
    } else {
      assert (a + b)[1..] == a[1..] + b;
      FilterAppend(a[1..], b, parentOf, parentId);
    }
  }

  /** `a` is `b` with some elements left out, the rest in order. */
  ghost predicate IsSubsequence<R>(a: seq<R>, b: seq<R>)
    decreases |b|
  {
    if |a| == 0 then true
    else if |b| == 0 then false
    else (a[0] == b[0] && IsSubsequence(a[1..], b[1..])) || IsSubsequence(a, b[1..])
  }

  /** A lookup result is a subsequence of its table. */
  lemma {:induction false} FilterIsSubsequence<R(!new)>(table: seq<R>, parentOf: R -> Option<int>, parentId: int)
    ensures IsSubsequence(FilterByParent(table, parentOf, parentId), table)
  {
    if |table| > 0 {
      FilterIsSubsequence(table[1..], parentOf, parentId);
      var rest := FilterByParent(table[1..], parentOf, parentId);
      if parentOf(table[0]) == Some(parentId) {
        assert ([table[0]] + rest)[1..] == rest;
      }
    }
  }

  /** `list_cities_by_parent_id`: the cities of one province, in table order. */
  function CitiesByParentId(cities: seq<City>, parentId: int): (r: seq<City>)
    ensures forall c :: c in r <==> c in cities && c.provinceId == Some(parentId)
  {
    FilterByParent(cities, (c: City) => c.provinceId, parentId)
  }

  /** `list_districts_by_parent_id`: the districts of one city, in table order. */
  function DistrictsByParentId(districts: seq<District>, parentId: int): (r: seq<District>)
    ensures forall d :: d in r <==> d in districts && d.cityId == Some(parentId)
  {
    FilterByParent(districts, (d: District) => d.cityId, parentId)
  }

  /** `list_villages_by_parent_id`: the villages of one district, in table order. */
  function VillagesByParentId(villages: seq<Village>, parentId: int): (r: seq<Village>)
    ensures forall v :: v in r <==> v in villages && v.districtId == Some(parentId)
  {
    FilterByParent(villages, (v: Village) => v.districtId, parentId)
  }

  /** The lookups keep table order: looking up in two concatenated tables
      gives the two lookups one after the other. */
  lemma LookupsKeepOrder(c1: seq<City>, c2: seq<City>, d1: seq<District>, d2: seq<District>,
                         v1: seq<Village>, v2: seq<Village>, parentId: int)
    ensures CitiesByParentId(c1 + c2, parentId) == CitiesByParentId(c1, parentId) + CitiesByParentId(c2, parentId)
    ensures DistrictsByParentId(d1 + d2, parentId) == DistrictsByParentId(d1, parentId) + DistrictsByParentId(d2, parentId)
    ensures VillagesByParentId(v1 + v2, parentId) == VillagesByParentId(v1, parentId) + VillagesByParentId(v2, parentId)
  {
    FilterAppend(c1, c2, (c: City) => c.provinceId, parentId);
    FilterAppend(d1, d2, (d: District) => d.cityId, parentId);
    FilterAppend(v1, v2, (v: Village) => v.districtId, parentId);
  }
}

=== FILE: response.dfy ===
/** The pure part of the forecast endpoint (`prakiraan_cuaca`): the
    location block, the lookup of the raw forecast inside the upstream
    body, the three-slot serialisation and the catch-all that turns any
    exception into one plain-text error response. */
module Response {
  import opened Wrappers
  import opened Json
  import opened Externals
  import opened Observation
  import opened Matrix

  /** The outcome of the upstream GET and `response.json()`: the decoded
      body, or a failure (connection error, timeout, non-2xx status, or a
      body that is not JSON). */
  datatype Fetch = Fetched(body: Json) | FetchFailed

  /** Either the JSON result, or the plain-text error response whose body
      is "ERROR: Gagal mengambil data. " followed by the exception text. */
  datatype Response = JsonResponse(content: Json) | PlainTextError(cause: PyError)

  /** The fields of `Lokasi` with their declared types, in declaration order. */
  const LokasiFields: seq<(string, ScalarKind)> := [
    ("adm1", StrKind), ("adm2", StrKind), ("adm3", StrKind), ("adm4", StrKind),
    ("provinsi", StrKind), ("kotkab", StrKind), ("kecamatan", StrKind), ("desa", StrKind),
    ("lon", FloatKind), ("lat", FloatKind), ("timezone", StrKind)]

  ghost predicate DistinctKeys(fields: seq<(string, ScalarKind)>) {
    forall i, j :: 0 <= i < |fields| && 0 <= j < |fields| && i != j ==> fields[i].0 != fields[j].0
  }

  lemma LokasiKeysDistinct()
    ensures DistinctKeys(LokasiFields)
  {
    var fs := LokasiFields;
    forall i, j | 0 <= i < |fs| && 0 <= j < |fs| && i != j
      ensures fs[i].0 != fs[j].0
    {
    }
  }

  function KeysOf(fields: seq<(string, ScalarKind)>): set<string> {
    set i | 0 <= i < |fields| :: fields[i].0
  }

  /** `model_dump()` of a validated model: every field, under its own
      name, with its stored value or null. */
  function DumpAll(h: Host, d: map<string, Json>, fields: seq<(string, ScalarKind)>): (r: map<string, Json>)
    requires DistinctKeys(fields)
    ensures r.Keys == KeysOf(fields)
    ensures forall i :: 0 <= i < |fields| ==> r[fields[i].0] == Coerced(h, d, fields[i].0, fields[i].1).GetOr(JNull)
  {
    if |fields| == 0 then map[]
    else
      assert forall i :: 1 <= i < |fields| ==> fields[i] == fields[1..][i - 1];
      var rest := DumpAll(h, d, fields[1..]);
      assert KeysOf(fields) == KeysOf(fields[1..]) + {fields[0].0};
      rest[fields[0].0 := Coerced(h, d, fields[0].0, fields[0].1).GetOr(JNull)]
  }

  /** `Lokasi.model_validate(lokasi_raw)` followed by `model_dump()`. A
      value that is not a dict cannot be validated, and the final fallback
      `Lokasi(**lokasi_raw)` raises TypeError for it. A dict is validated
      field by field (other keys are ignored) and dumped with all eleven
      keys, absent ones as null. */
  function ParseLokasi(h: Host, raw: Json): (r: Result<map<string, Json>, PyError>)
    ensures !raw.JObj? ==> r == Err(TypeError)
    ensures raw.JObj? ==> (r.Err? <==> exists i :: 0 <= i < |LokasiFields| && Rejects(h, raw.fields, LokasiFields[i].0, LokasiFields[i].1))
    ensures raw.JObj? && r.Err? ==>
              && r.error.ValidationError?
              && forall k :: k in r.error.fields <==>
                   exists i :: 0 <= i < |LokasiFields| && LokasiFields[i].0 == k && Rejects(h, raw.fields, k, LokasiFields[i].1)
    ensures r.Ok? ==> r.value.Keys == KeysOf(LokasiFields)
                      && forall i :: 0 <= i < |LokasiFields| ==>
                           LokasiFields[i].0 in r.value
                           && r.value[LokasiFields[i].0] == Coerced(h, raw.fields, LokasiFields[i].0, LokasiFields[i].1).GetOr(JNull)
  {
    if !raw.JObj? then Err(TypeError)
    else
      var bad := Rejected(h, raw.fields, LokasiFields);
      if bad != [] then
        assert bad[0] in bad;
        Err(ValidationError(bad))
      else
        LokasiKeysDistinct();
        var m := DumpAll(h, raw.fields, LokasiFields);
        Ok(m)
  }

  /** `data.get("data", [{}])[0].get("cuaca", [[]])`: the raw forecast in the
      first data entry. A missing `data` key gives an entry without
      `cuaca`, and a missing `cuaca` key gives one empty day. Taking `[0]`
      of an empty list or string raises IndexError, of a dict KeyError, of
      anything else TypeError; `.get` on a first entry that is not a dict
      raises AttributeError. */
  function ForecastRaw(data: map<string, Json>): (r: Result<Json, PyError>)
    ensures "data" !in data ==> r == Ok(JArr([JArr([])]))
    ensures r.Ok? <==> var e := GetOr(data, "data", JArr([JObj(map[])])); e.JArr? && |e.elems| > 0 && e.elems[0].JObj?
    ensures r.Ok? ==> var first := GetOr(data, "data", JArr([JObj(map[])])).elems[0].fields;
                      r.value == GetOr(first, "cuaca", JArr([JArr([])]))
    ensures GetOr(data, "data", JArr([JObj(map[])])) == JArr([]) ==> r == Err(IndexError)
  {
    match GetOr(data, "data", JArr([JObj(map[])]))
    case JArr(entries) =>
      if |entries| == 0 then Err(IndexError)
      else if !entries[0].JObj? then Err(AttributeError)
      else Ok(GetOr(entries[0].fields, "cuaca", JArr([JArr([])])))
    case JStr(s) => if |s| == 0 then Err(IndexError) else Err(AttributeError)
    case JObj(_) => Err(KeyError)
    case _ => Err(TypeError)
  }

  /** `[cuaca_to_dict(c) for c in (slot or [])]`. */
  function SerializeSlot(h: Host, slot: Option<seq<Cuaca>>): (r: Json)
    ensures r.JArr? && |r.elems| == |slot.GetOr([])|
    ensures slot.None? ==> r == JArr([])
    ensures forall i :: 0 <= i < |r.elems| ==> r.elems[i] == JObj(ToDict(h, slot.GetOr([])[i]))
  {
    var cs := slot.GetOr([]);
    JArr(seq(|cs|, i requires 0 <= i < |cs| => JObj(ToDict(h, cs[i]))))
  }

  /** The `cuaca` object: always the three keys `now`, `day1`, `day2`, an
      absent slot shown as an empty list. */
  function SerializeForecast(h: Host, lc: ListCuaca): (r: map<string, Json>)
    ensures r.Keys == {"now", "day1", "day2"}
    ensures r["now"] == SerializeSlot(h, lc.now)
    ensures r["day1"] == SerializeSlot(h, lc.day1)
    ensures r["day2"] == SerializeSlot(h, lc.day2)
  {
    map["now" := SerializeSlot(h, lc.now), "day1" := SerializeSlot(h, lc.day1), "day2" := SerializeSlot(h, lc.day2)]
  }

  /** The validated location of a decoded body: `data.get("lokasi", {})`
      through `Lokasi`. */
  function Location(h: Host, d: map<string, Json>): (r: Result<map<string, Json>, PyError>)
    ensures "lokasi" in d ==> r == ParseLokasi(h, d["lokasi"])
    ensures "lokasi" !in d ==> r.Ok? && r.value.Keys == KeysOf(LokasiFields)
                               && forall k :: k in r.value ==> r.value[k] == JNull
  {
    EmptyLocation(h);
    ParseLokasi(h, GetOr(d, "lokasi", JObj(map[])))
  }

  /** The body of the `try` block after the upstream call, up to the
      content handed to `JSONResponse`. `data.get` on a body that is not a
      dict raises AttributeError. Otherwise the location is validated
      first, then the raw forecast is looked up, then it is parsed; the
      first of these to raise decides the error. On success the content is
      the dumped location next to the three serialised slots. */
  function Pipeline(h: Host, data: Json): (r: Result<Json, PyError>)
    ensures !data.JObj? ==> r == Err(AttributeError)
    ensures data.JObj? ==>
      var d := data.fields;
      && (r.Ok? <==> Location(h, d).Ok? && ForecastRaw(d).Ok? && ParseListCuaca(h, ForecastRaw(d).value).Ok?)
      && (Location(h, d).Err? ==> r == Err(Location(h, d).error))
      && (Location(h, d).Ok? && ForecastRaw(d).Err? ==> r == Err(ForecastRaw(d).error))
      && (Location(h, d).Ok? && ForecastRaw(d).Ok? && ParseListCuaca(h, ForecastRaw(d).value).Err? ==>
            r == Err(ParseListCuaca(h, ForecastRaw(d).value).error))
      && (r.Ok? ==> r.value == JObj(map["lokasi" := JObj(Location(h, d).value),
                                        "cuaca" := JObj(SerializeForecast(h, ParseListCuaca(h, ForecastRaw(d).value).value))]))
    ensures r.Ok? ==> r.value.JObj? && r.value.fields.Keys == {"lokasi", "cuaca"}
                      && r.value.fields["cuaca"].JObj?
                      && r.value.fields["cuaca"].fields.Keys == {"now", "day1", "day2"}
  {
    if !data.JObj? then Err(AttributeError)
    else
      var lokasi :- Location(h, data.fields);
      var raw :- ForecastRaw(data.fields);
      var lc :- ParseListCuaca(h, raw);
      Ok(JObj(map["lokasi" := JObj(lokasi), "cuaca" := JObj(SerializeForecast(h, lc))]))
  }

  /** `prakiraan_cuaca()`. Building the `JSONResponse` renders the content
      with `allow_nan=False`, inside the `try`, so an infinite or NaN float
      in it raises ValueError. The result is the JSON response exactly when
      the request and every step succeed and the content is finite, and
      otherwise one plain-text error carrying the first exception, with no
      part of the result. */
  function Assemble(h: Host, fetch: Fetch): (r: Response)
    ensures fetch.FetchFailed? ==> r == PlainTextError(RequestError)
    ensures fetch.Fetched? && Pipeline(h, fetch.body).Err? ==> r == PlainTextError(Pipeline(h, fetch.body).error)
    ensures fetch.Fetched? && Pipeline(h, fetch.body).Ok? && !Finite(Pipeline(h, fetch.body).value) ==>
              r == PlainTextError(ValueError)
    ensures r.JsonResponse? <==> fetch.Fetched? && Pipeline(h, fetch.body).Ok? && Finite(Pipeline(h, fetch.body).value)
    ensures r.JsonResponse? ==> Pipeline(h, fetch.body) == Ok(r.content)
  {
    match fetch
    case FetchFailed => PlainTextError(RequestError)
    case Fetched(body) =>
      match Pipeline(h, body)
      case Ok(j) => if Finite(j) then JsonResponse(j) else PlainTextError(ValueError)
      case Err(e) => PlainTextError(e)
  }

  /** A longitude that validates to an infinite or NaN float (from a number
      too large for a double, or the token `Infinity` or `NaN`) cannot be
      rendered: the whole response becomes the ValueError text. */
  lemma NonFiniteLongitudeFails(h: Host, d: map<string, Json>, w: NonFinite)
    requires GetOr(d, "lokasi", JObj(map[])).JObj?
    requires Get(GetOr(d, "lokasi", JObj(map[])).fields, "lon") != JNull
    requires h.coerce(FloatKind, Get(GetOr(d, "lokasi", JObj(map[])).fields, "lon")) == Some(JNonFinite(w))
    requires Pipeline(h, JObj(d)).Ok?
    ensures Assemble(h, Fetched(JObj(d))) == PlainTextError(ValueError)
  {
    NonFiniteLongitudeDumped(h, GetOr(d, "lokasi", JObj(map[])), w);
    var content := Pipeline(h, JObj(d)).value;
    assert content.fields["lokasi"] == JObj(Location(h, d).value);
    assert !Finite(content);
  }

  /** A validated location whose longitude is stored as a non-finite
      float dumps to a value that cannot be rendered. */
  lemma NonFiniteLongitudeDumped(h: Host, raw: Json, w: NonFinite)
    requires raw.JObj? && Get(raw.fields, "lon") != JNull
    requires h.coerce(FloatKind, Get(raw.fields, "lon")) == Some(JNonFinite(w))
    ensures ParseLokasi(h, raw).Ok? ==> !Finite(JObj(ParseLokasi(h, raw).value))
  {
    if ParseLokasi(h, raw).Ok? {
      var lok := ParseLokasi(h, raw).value;
      assert LokasiFields[8] == ("lon", FloatKind);
      assert lok["lon"] == JNonFinite(w);
    }
  }

  /** A body without `lokasi` cannot fail on the location: it succeeds
      exactly when the forecast does, and then the location is eleven null
      fields. */
  lemma MissingLocationDefaults(h: Host, d: map<string, Json>)
    requires "lokasi" !in d
    ensures Pipeline(h, JObj(d)).Ok? <==> ForecastRaw(d).Ok? && ParseListCuaca(h, ForecastRaw(d).value).Ok?
    ensures Pipeline(h, JObj(d)).Ok? ==>
      var l := Pipeline(h, JObj(d)).value.fields["lokasi"];
      && l.JObj? && l.fields.Keys == KeysOf(LokasiFields)
      && forall k :: k in l.fields ==> l.fields[k] == JNull
  {
    EmptyLocation(h);
    assert Location(h, d) == ParseLokasi(h, JObj(map[]));
  }

  /** The three empty slots of a forecast without days. */
  const EmptyForecast: Json := JObj(map["now" := JArr([]), "day1" := JArr([]), "day2" := JArr([])])

  /** A body without `lokasi` and `data` still gives a result: a location
      with all eleven fields null and one empty day, shown as three empty
      slots. */
  lemma EmptyBodyDefaults(h: Host)
    ensures Pipeline(h, JObj(map[])).Ok?
    ensures var c := Pipeline(h, JObj(map[])).value.fields;
      && c["cuaca"] == EmptyForecast
      && c["lokasi"].JObj?
      && c["lokasi"].fields.Keys == KeysOf(LokasiFields)
      && forall k :: k in c["lokasi"].fields ==> c["lokasi"].fields[k] == JNull
  {
    EmptyLocation(h);
    EmptyForecastDefault(h);
  }

  /** A missing location validates to all eleven fields null. */
  lemma EmptyLocation(h: Host)
    ensures ParseLokasi(h, JObj(map[])).Ok?
    ensures ParseLokasi(h, JObj(map[])).value.Keys == KeysOf(LokasiFields)
    ensures forall k :: k in ParseLokasi(h, JObj(map[])).value ==> ParseLokasi(h, JObj(map[])).value[k] == JNull
  {
    var empty: map<string, Json> := map[];
    assert forall i :: 0 <= i < |LokasiFields| ==> !Rejects(h, empty, LokasiFields[i].0, LokasiFields[i].1);
  }

  /** A missing `data` key gives one empty day: `now` is empty and the
      other slots are absent. */
  lemma EmptyForecastDefault(h: Host)
    ensures ForecastRaw(map[]) == Ok(JArr([JArr([])]))
    ensures ParseListCuaca(h, JArr([JArr([])])) == Ok(ListCuaca(Some([]), None, None))
    ensures SerializeForecast(h, ListCuaca(Some([]), None, None)) == EmptyForecast.fields
  {
    var raw := JArr([JArr([])]);
    assert Days(raw)[0] == JArr([]);
    assert Dicts([]) == [];
  }

  /** An empty `data` list makes the whole call fail (IndexError, unless
      the location already failed); no partial result is returned. */
  lemma EmptyDataFails(h: Host, d: map<string, Json>)
    requires Get(d, "data") == JArr([])
    ensures Assemble(h, Fetched(JObj(d))).PlainTextError?
    ensures ParseLokasi(h, GetOr(d, "lokasi", JObj(map[]))).Ok? ==>
              Assemble(h, Fetched(JObj(d))) == PlainTextError(IndexError)
  {
    assert GetOr(d, "data", JArr([JObj(map[])])) == JArr([]);
  }

  /** One day of the forecast that cannot be parsed (in any position, also
      past the third) turns the whole response into the error. */
  lemma DayFailureFails(h: Host, d: map<string, Json>, days: seq<Json>, i: int)
    requires ForecastRaw(d) == Ok(JArr(days))
    requires 0 <= i < |days| && ParseDayValue(h, days[i]).Err?
    ensures Assemble(h, Fetched(JObj(d))).PlainTextError?
  {
    assert Days(JArr(days))[i] == days[i];
  }

  /** One record of the forecast that pydantic rejects turns the whole
      response into the error: valid records elsewhere are not returned. */
  lemma RecordFailureFails(h: Host, d: map<string, Json>, days: seq<Json>, i: int, j: int)
    requires ForecastRaw(d) == Ok(JArr(days))
    requires 0 <= i < |days| && days[i].JArr?
    requires 0 <= j < |Dicts(days[i].elems)| && ParseItem(h, Dicts(days[i].elems)[j]).Err?
    ensures Assemble(h, Fetched(JObj(d))).PlainTextError?
  {
    ParseDayFailsOnAnyEntry(h, days[i].elems, j);
    DayFailureFails(h, d, days, i);
  }

  /** The forecast part of the result for `[[{"t": 1}], [{"t": 2}]]`: two
      days fill `now` and `day1`, `day2` stays empty. Each temperature is
      shown as pydantic stores it for a `float` field (`1.0` and `2.0` with
      the real library). */
  lemma TwoDayExample(h: Host, w1: Json, w2: Json)
    requires h.coerce(FloatKind, JInt(1)) == Some(w1) && w1 != JNull
    requires h.coerce(FloatKind, JInt(2)) == Some(w2) && w2 != JNull
    ensures var raw := JArr([JArr([JObj(map["t" := JInt(1)])]), JArr([JObj(map["t" := JInt(2)])])]);
      && ParseListCuaca(h, raw).Ok?
      && SerializeForecast(h, ParseListCuaca(h, raw).value)
         == map["now" := JArr([JObj(map["t" := w1])]),
                "day1" := JArr([JObj(map["t" := w2])]),
                "day2" := JArr([])]
  {
    OneRecordDay(h, 1, w1);
    OneRecordDay(h, 2, w2);
    var day1 := JArr([JObj(map["t" := JInt(1)])]);
    var day2 := JArr([JObj(map["t" := JInt(2)])]);
    TwoDaysFillTwoSlots(h, day1, day2);
    var a, b := ParseDayValue(h, day1).value, ParseDayValue(h, day2).value;
    var f := SerializeForecast(h, ListCuaca(Some(a), Some(b), None));
    assert f["now"] == JArr([JObj(map["t" := w1])]);
    assert f["day1"] == JArr([JObj(map["t" := w2])]);
    assert f["day2"] == JArr([]);
  }

  /** Two days that parse fill `now` and `day1` and leave `day2` absent. */
  lemma TwoDaysFillTwoSlots(h: Host, first: Json, second: Json)
    requires ParseDayValue(h, first).Ok? && ParseDayValue(h, second).Ok?
    ensures ParseListCuaca(h, JArr([first, second]))
         == Ok(ListCuaca(Some(ParseDayValue(h, first).value), Some(ParseDayValue(h, second).value), None))
  {
    assert Days(JArr([first, second])) == [first, second];
  }

  /** A day holding the single record `{"t": n}` serialises to `{"t": w}`,
      with `w` what pydantic stores for `n` in a `float` field. */
  lemma OneRecordDay(h: Host, n: int, w: Json)
    requires h.coerce(FloatKind, JInt(n)) == Some(w) && w != JNull
    ensures ParseDayValue(h, JArr([JObj(map["t" := JInt(n)])])).Ok?
    ensures SerializeSlot(h, Some(ParseDayValue(h, JArr([JObj(map["t" := JInt(n)])])).value))
            == JArr([JObj(map["t" := w])])
  {
    var d := map["t" := JInt(n)];
    var c := Cuaca(None, Some(w), None, None, None, None, None, None, None, None, None, None, None, None, None, None, None, None, None);
    OnlyTemperature(h, n, w, c);
    assert Dicts([JObj(d)]) == [d];
    var day := ParseDayValue(h, JArr([JObj(d)]));
    assert day.Ok?;
    assert |day.value| == 1;
    ParseDayPointwise(h, [JObj(d)], 0);
    assert day.value == [c];
  }

  /** `{"t": n}` parses to the record holding only the stored temperature
      `w`, and that record renders to `{"t": w}`. */
  lemma OnlyTemperature(h: Host, n: int, w: Json, c: Cuaca)
    requires h.coerce(FloatKind, JInt(n)) == Some(w) && w != JNull
    requires c == Cuaca(None, Some(w), None, None, None, None, None, None, None, None, None, None, None, None, None, None, None, None, None)
    ensures ParseItem(h, map["t" := JInt(n)]) == Ok(c)
    ensures ToDict(h, c) == map["t" := w]
  {
    ParseOnlyTemperature(h, n, w, c);
    RenderOnlyTemperature(h, w, c);
  }

  /** `{"t": n}` parses to the record holding only `t`. */
  lemma ParseOnlyTemperature(h: Host, n: int, w: Json, c: Cuaca)
    requires h.coerce(FloatKind, JInt(n)) == Some(w)
    requires c == Cuaca(None, Some(w), None, None, None, None, None, None, None, None, None, None, None, None, None, None, None, None, None)
    ensures ParseItem(h, map["t" := JInt(n)]) == Ok(c)
  {
    var d := map["t" := JInt(n)];
    assert forall i :: 1 <= i < |ScalarFields| ==> Get(d, ScalarFields[i].0) == JNull;
  }

  /** The record holding only the temperature `w` renders to `{"t": w}`. */
  lemma RenderOnlyTemperature(h: Host, w: Json, c: Cuaca)
    requires w != JNull
    requires c == Cuaca(None, Some(w), None, None, None, None, None, None, None, None, None, None, None, None, None, None, None, None, None)
    ensures ToDict(h, c) == map["t" := w]
  {
    var r := ToDict(h, c);
    assert Renders(r, "t", Dumped(h, c, "t"));
    forall k | k in r ensures k == "t" {
      assert k in FieldNames && Renders(r, k, Dumped(h, c, k));
    }
  }
}

=== FILE: temporal.dfy ===
/** `parse_datetime`: a raw timestamp value to a `datetime`, or None. */
module Temporal {
  import opened Wrappers
  import opened Json
  import opened Externals

  /** A falsy value (None, "", 0, ...) parses to None. Otherwise the ISO
      parser is tried first, then the fixed `%Y-%m-%dT%H:%M:%S` pattern; a
      value both reject parses to None. A value that is not a string makes
      both library calls raise, which is caught, so it parses to None too:
      the function never raises. */
  function ParseDateTime(h: Host, v: Json): (r: Option<DateTime>)
    ensures !Truthy(v) || !v.JStr? ==> r.None?
    ensures v.JStr? && |v.s| > 0 && h.fromIsoFormat(v.s).Some? ==> r == h.fromIsoFormat(v.s)
    ensures v.JStr? && |v.s| > 0 && h.fromIsoFormat(v.s).None? ==> r == h.strptime(v.s)
    ensures r.Some? <==> v.JStr? && |v.s| > 0 && (h.fromIsoFormat(v.s).Some? || h.strptime(v.s).Some?)
  {
    if !Truthy(v) then None
    else match v
      case JStr(s) =>
        (match h.fromIsoFormat(s)
         case Some(dt) => Some(dt)
         case None => h.strptime(s))
      case _ => None
  }
}

=== FILE: vocabulary.dfy ===
/** The closed vocabularies of the forecast feed (`VsText`, `WeatherDesc`,
    `WeatherDescEn`) and `parse_enum`, which resolves a raw token against
    one of them. */
module Vocabulary {
  import opened Wrappers
  import opened Json

  /** One member of an enum class: the Dafny value with its Python name
      and display value. */
  datatype Member<T> = Member(tag: T, name: string, value: string)

  /** Visibility text. One member, whose display value means "over 10 km". */
  datatype VsText = The10Km {
    function Index(): (i: nat)
      ensures i < |VsTextMembers| && VsTextMembers[i].tag == this
    {
      0
    }
    function Name(): string { VsTextMembers[Index()].name }
    function Value(): string { VsTextMembers[Index()].value }
  }

  /** Localised weather description. */
  datatype WeatherDesc = Berawan | Cerah | CerahBerawan | HujanRingan {
    function Index(): (i: nat)
      ensures i < |WeatherDescMembers| && WeatherDescMembers[i].tag == this
    {
      match this
      case Berawan => 0
      case Cerah => 1
      case CerahBerawan => 2
      case HujanRingan => 3
    }
    function Name(): string { WeatherDescMembers[Index()].name }
    function Value(): string { WeatherDescMembers[Index()].value }
  }

  /** English weather description. */
  datatype WeatherDescEn = LightRain | MostlyCloudy | PartlyCloudy | Sunny {
    function Index(): (i: nat)
      ensures i < |WeatherDescEnMembers| && WeatherDescEnMembers[i].tag == this
    {
      match this
      case LightRain => 0
      case MostlyCloudy => 1
      case PartlyCloudy => 2
      case Sunny => 3
    }
    function Name(): string { WeatherDescEnMembers[Index()].name }
    function Value(): string { WeatherDescEnMembers[Index()].value }
  }

  /** The members of each enum class in declaration order, the order in
      which iterating the class visits them. */
  const VsTextMembers: seq<Member<VsText>> := [Member(The10Km, "THE_10_KM", "> 10 km")]

  const WeatherDescMembers: seq<Member<WeatherDesc>> := [
    Member(Berawan, "BERAWAN", "Berawan"),
    Member(Cerah, "CERAH", "Cerah"),
    Member(CerahBerawan, "CERAH_BERAWAN", "Cerah Berawan"),
    Member(HujanRingan, "HUJAN_RINGAN", "Hujan Ringan")]

  const WeatherDescEnMembers: seq<Member<WeatherDescEn>> := [
    Member(LightRain, "LIGHT_RAIN", "Light Rain"),
    Member(MostlyCloudy, "MOSTLY_CLOUDY", "Mostly Cloudy"),
    Member(PartlyCloudy, "PARTLY_CLOUDY", "Partly Cloudy"),
    Member(Sunny, "SUNNY", "Sunny")]

  /** A member matches a token when the token is a string equal, exactly
      and case-sensitively, to the member's display value or its name. A
      token that is not a string equals neither. */
  predicate Matches<T>(m: Member<T>, raw: Json) {
    raw.JStr? && (m.value == raw.s || m.name == raw.s)
  }

  /** The first member of `members` that matches `raw`. */
  function FirstMatch<T>(members: seq<Member<T>>, raw: Json): (r: Option<T>)
    ensures r.None? <==> forall i :: 0 <= i < |members| ==> !Matches(members[i], raw)
    ensures r.Some? ==> exists i :: 0 <= i < |members| && members[i].tag == r.value
                                   && Matches(members[i], raw)
                                   && forall j :: 0 <= j < i ==> !Matches(members[j], raw)
  {
    if |members| == 0 then None
    else if Matches(members[0], raw) then Some(members[0].tag)
    else
      var r := FirstMatch(members[1..], raw);
      assert forall i :: 1 <= i < |members| ==> members[i] == members[1..][i - 1];
      r
  }

  /** `parse_enum(enum_cls, value)`: None for a None token, otherwise the
      first member in declaration order whose value or name equals the
      token, or None when no member does. It never raises. */
  function ParseEnum<T>(members: seq<Member<T>>, raw: Json): (r: Option<T>)
    ensures raw == JNull ==> r.None?
    ensures r.None? <==> forall i :: 0 <= i < |members| ==> !Matches(members[i], raw)
    ensures r.Some? ==> exists i :: 0 <= i < |members| && members[i].tag == r.value
                                   && Matches(members[i], raw)
                                   && forall j :: 0 <= j < i ==> !Matches(members[j], raw)
  {
    if raw == JNull then None else FirstMatch(members, raw)
  }

  function ParseVsText(raw: Json): Option<VsText> {
    ParseEnum(VsTextMembers, raw)
  }

  function ParseWeatherDesc(raw: Json): Option<WeatherDesc> {
    ParseEnum(WeatherDescMembers, raw)
  }

  function ParseWeatherDescEn(raw: Json): Option<WeatherDescEn> {
    ParseEnum(WeatherDescEnMembers, raw)
  }

  /** No token names two members: the values and names of distinct
      members are pairwise different. */
  ghost predicate Unambiguous<T>(ms: seq<Member<T>>) {
    forall i, j :: 0 <= i < |ms| && 0 <= j < |ms| && i != j ==>
      && ms[i].value != ms[j].value && ms[i].value != ms[j].name
      && ms[i].name != ms[j].name && ms[i].name != ms[j].value
  }

  /** In an unambiguous vocabulary each member is found again from its
      display value and from its name. */
  lemma ResolvesAt<T>(ms: seq<Member<T>>, i: int)
    requires Unambiguous(ms)
    requires 0 <= i < |ms|
    ensures ParseEnum(ms, JStr(ms[i].value)) == Some(ms[i].tag)
    ensures ParseEnum(ms, JStr(ms[i].name)) == Some(ms[i].tag)
  {
    assert Matches(ms[i], JStr(ms[i].value)) && Matches(ms[i], JStr(ms[i].name));
  }

  lemma WeatherDescUnambiguous()
    ensures Unambiguous(WeatherDescMembers)
  {
    var ms := WeatherDescMembers;
    forall i, j | 0 <= i < |ms| && 0 <= j < |ms| && i != j
      ensures ms[i].value != ms[j].value && ms[i].value != ms[j].name
      ensures ms[i].name != ms[j].name && ms[i].name != ms[j].value
    {
    }
  }

  lemma WeatherDescEnUnambiguous()
    ensures Unambiguous(WeatherDescEnMembers)
  {
    var ms := WeatherDescEnMembers;
    forall i, j | 0 <= i < |ms| && 0 <= j < |ms| && i != j
      ensures ms[i].value != ms[j].value && ms[i].value != ms[j].name
      ensures ms[i].name != ms[j].name && ms[i].name != ms[j].value
    {
    }
  }

  /** Every member is found again from its display value and from its
      name: rendering a member and re-parsing it is the identity. */
  lemma VsTextResolves(m: VsText)
    ensures ParseVsText(JStr(m.Value())) == Some(m)
    ensures ParseVsText(JStr(m.Name())) == Some(m)
  {
    assert Unambiguous(VsTextMembers);
    ResolvesAt(VsTextMembers, m.Index());
  }

  lemma WeatherDescResolves(m: WeatherDesc)
    ensures ParseWeatherDesc(JStr(m.Value())) == Some(m)
    ensures ParseWeatherDesc(JStr(m.Name())) == Some(m)
  {
    WeatherDescUnambiguous();
    ResolvesAt(WeatherDescMembers, m.Index());
  }

  lemma WeatherDescEnResolves(m: WeatherDescEn)
    ensures ParseWeatherDescEn(JStr(m.Value())) == Some(m)
    ensures ParseWeatherDescEn(JStr(m.Name())) == Some(m)
  {
    WeatherDescEnUnambiguous();
    ResolvesAt(WeatherDescEnMembers, m.Index());
  }

  /** No token of one vocabulary (value or name) is a token of the other. */
  ghost predicate Foreign<T, U>(ms: seq<Member<T>>, ns: seq<Member<U>>) {
    forall i, j :: 0 <= i < |ms| && 0 <= j < |ns| ==>
      && ms[i].value != ns[j].value && ms[i].value != ns[j].name
      && ms[i].name != ns[j].name && ms[i].name != ns[j].value
  }

  /** A token of a foreign vocabulary resolves to None. */
  lemma ForeignTokenUnresolved<T, U>(ms: seq<Member<T>>, ns: seq<Member<U>>, j: int)
    requires Foreign(ms, ns)
    requires 0 <= j < |ns|
    ensures ParseEnum(ms, JStr(ns[j].value)) == None
    ensures ParseEnum(ms, JStr(ns[j].name)) == None
  {
  }

  lemma DescriptionsForeign()
    ensures Foreign(WeatherDescMembers, WeatherDescEnMembers)
    ensures Foreign(WeatherDescEnMembers, WeatherDescMembers)
  {
    var ms, ns := WeatherDescMembers, WeatherDescEnMembers;
    forall i, j | 0 <= i < |ms| && 0 <= j < |ns|
      ensures ms[i].value != ns[j].value && ms[i].value != ns[j].name
      ensures ms[i].name != ns[j].name && ms[i].name != ns[j].value
    {
    }
  }

  /** Each description field resolves against its own vocabulary only: a
      token of the other one, such as "Sunny" in `weather_desc`, gives None
      rather than an error or a member of the wrong vocabulary. */
  lemma DescriptionVocabulariesDisjoint(w: WeatherDesc, e: WeatherDescEn)
    ensures ParseWeatherDesc(JStr(e.Value())) == None && ParseWeatherDesc(JStr(e.Name())) == None
    ensures ParseWeatherDescEn(JStr(w.Value())) == None && ParseWeatherDescEn(JStr(w.Name())) == None
  {
    DescriptionsForeign();
    ForeignTokenUnresolved(WeatherDescMembers, WeatherDescEnMembers, e.Index());
    ForeignTokenUnresolved(WeatherDescEnMembers, WeatherDescMembers, w.Index());
  }

  /** The English token "Sunny" in `weather_desc` resolves to None. */
  lemma SunnyIsNoWeatherDesc()
    ensures ParseWeatherDesc(JStr("Sunny")) == None
  {
    assert Sunny.Value() == "Sunny";
    DescriptionVocabulariesDisjoint(Cerah, Sunny);
  }

  /** Matching is exact and case-sensitive: a token that differs from a
      display value only in letter case resolves to None. */
  lemma MatchingIsCaseSensitive()
    ensures ParseWeatherDesc(JStr("cerah")) == None
    ensures ParseVsText(JStr("> 10 KM")) == None
  {
    var ms := WeatherDescMembers;
    assert !Matches(ms[0], JStr("cerah")) && !Matches(ms[1], JStr("cerah"));
    assert !Matches(ms[2], JStr("cerah")) && !Matches(ms[3], JStr("cerah"));
    assert !Matches(VsTextMembers[0], JStr("> 10 KM"));
  }
}

=== FILE: wrappers.dfy ===
/** Option and Result, the two failure-carrying datatypes the model uses in
    place of Python's None and raised exceptions. Both work with `:-`. */
module Wrappers {

  /** Python's `Optional[T]`: a value or None. */
  datatype Option<+T> = None | Some(value: T) {

    /** The value, or `default` when there is none (Python's `x or default`
        for the list-valued slots). */
    function GetOr(default: T): T {
      match this
      case Some(v) => v
      case None => default
    }
  }

  /** A computation that either returns a value or raises `error`. */
  datatype Result<+T, +E> = Ok(value: T) | Err(error: E) {

    predicate IsFailure() {
      Err?
    }

    function PropagateFailure<U>(): Result<U, E>
      requires Err?
    {
      Err(error)
    }

    function Extract(): T
      requires Ok?
    {
      value
    }
  }
}
